=== FILE: README.md ===
# Monitoring file writer — a Dafny model

This project models `MonitorFileWriterImpl`, the class in the Kaazing
gateway's management module that lays out the memory-mapped monitoring file
and writes its metadata. The file starts with a metadata region. The region
holds:

- the format version;
- two self-references;
- the gateway id;
- the gateway counter-buffer descriptors;
- a service count;
- one descriptor per service slot, made of a name and a location int;
- a trailing service reference section of offset/length ints for each slot.

After the metadata region, aligned to a 64-byte cache line, comes the data
region. It holds the gateway's labels and values buffers, then a labels and
a values buffer for each of the `MAX_SERVICE_COUNT` (10) slots.

The modules follow the class's parts:

- `JavaInt`: Java's 32-bit `int` arithmetic. `Add` and `Mul` wrap the way
  Java does, and `Wrap` is characterised by `WrapUnique`.
- `Format`: the class constants, the header field offsets and the
  `metadataItemOffset` helpers.
- `Layout`: `setServicesCount` (metadata length, end of metadata, the
  reference section), `computeMonitorTotalFileLength` and the writer state.
  `RefCell` gives the address of slot `i`'s `k`-th reference int, and
  `MetadataViewLength` gives the length of the view
  `addMetadataToAgronaFile` creates.
- `Header`: the mapped memory at the granularity the writer stores it. It
  has an int per byte offset and a string per string-slot offset. A field is
  present once it has been stored.
- `Metadata`: `fillMetaData` and `addMetadataToAgronaFile`.
- `Allocator`: the four `create*Buffer` operations. Each returns the view
  (offset, length) and the header with the resolved offset recorded.
- `Registrar`: `fillServiceMetadata`, and `RegisterAll`, which applies it to
  a sequence of registrations.
- `DataRegion`: the allocator's views taken together, laid end to end
  over the data region.
- `Activation`: attaching one service, that is registering the slot and then
  creating its labels and values buffers. `ActivateAll` attaches a sequence
  of services.

Offsets in the allocator and the registrar are computed one Java operation
at a time with `Add`/`Mul`, so an out-of-range slot index wraps as it would
in Java. The layout is computed exactly: `LayoutFitsJavaInt` and
`TotalFileLengthValue` show that no value there leaves the `int` range.

Reading a header field that was never stored is a precondition: the code
reads back only fields that `fillMetaData` stores first. Slot indices are
not checked by the code, and they are not restricted by the model's
operations either. Only the lemmas that state in-capacity properties ask
for `0 <= index < MAX_SERVICE_COUNT`. Four lemmas show what happens one slot
outside the range on either side:

- `Registrar.SlotPastCapacityOverlapsRefSection`: slot 10's name runs into
  the reference section.
- `Registrar.PastCapacitySlotCounted`: slot 10 still adds one to the
  service count.
- `Allocator.SlotPastCapacityOutsideFile`: slot 10's labels buffer starts at
  the end of the file.
- `Registrar.NegativeSlotResetsCount`: slot -1's location int is the service
  count field, so registering slot -1 leaves the count at zero.

For indices 11 to 1,000,000 the location int lies past the metadata view,
as `Registrar.PastViewFromSlotEleven` shows. Because Java `int` arithmetic
wraps modulo 2^32, index `i + 2^30` addresses exactly the fields of slot `i`
(`Registrar.WrappedSlotAliases`). So index 2^30 writes over slot 0 inside
the view, and index 2^30 - 1 resets the count as index -1 does.

Three behaviours of the code are modelled as written:

- Line 301 increments the service count with no check for a slot that is
  already registered, so a second registration counts again; see
  `Registrar.RegisterAllCount`.
- The class comment at lines 44-55 and the section sizing at line 244 allot
  four ints per slot in the service reference section. The stores at lines
  181, 205 and 309-314 step one int per slot; see Findings.
- `putStringUtf8` at lines 284 and 305 is called with no length limit for the
  128-byte string slots. The model keeps string writes opaque.

Each operation is defined once, and the writer carries an `addressing`
field:

- `AsWritten`: the code's reference-int addressing. `Layout.NewWriter`
  builds this writer.
- `Intended`: four ints per slot, with a metadata view reaching the end of
  the metadata. `Activation.IntendedWriter` builds this writer.

## Model

| member | source | states |
|---|---|---|
| `JavaInt.WrapUnique` | management/src/main/java/org/kaazing/gateway/management/monitoring/configuration/impl/MonitorFileWriterImpl.java:174-177 | a Java `int` result is the unique `int` congruent to the exact result modulo 2^32, which is what the offset arithmetic in the allocator yields |
| `JavaInt.Add` | management/src/main/java/org/kaazing/gateway/management/monitoring/configuration/impl/MonitorFileWriterImpl.java:299 | `int` addition: the result is always an `int`, and it is the exact sum when that sum is an `int` |
| `JavaInt.Mul` | management/src/main/java/org/kaazing/gateway/management/monitoring/configuration/impl/MonitorFileWriterImpl.java:303 | `int` multiplication: the result is always an `int`, and it is the exact product when that product is an `int` |
| `Format.MonitorVersionAt` | management/src/main/java/org/kaazing/gateway/management/monitoring/configuration/impl/MonitorFileWriterImpl.java:252-254 | the version field sits at the given base offset |
| `Format.MetadataRelativeOffset` | management/src/main/java/org/kaazing/gateway/management/monitoring/configuration/impl/MonitorFileWriterImpl.java:262-264 | a metadata field's position is the base plus the field's offset, since the metadata starts at offset 0 |
| `Format.MetadataItemOffset` | management/src/main/java/org/kaazing/gateway/management/monitoring/configuration/impl/MonitorFileWriterImpl.java:270-272 | each header field's absolute position equals its offset constant, so every header field is addressed from the start of the file |
| `Layout.Align` | management/src/main/java/org/kaazing/gateway/management/monitoring/configuration/impl/MonitorFileWriterImpl.java:243 | aligning to a power of two gives the least multiple of the alignment that is at least the value |
| `Layout.SetServicesCount` | management/src/main/java/org/kaazing/gateway/management/monitoring/configuration/impl/MonitorFileWriterImpl.java:239-245 | metadata length is the header plus 148 bytes per slot; the end of the metadata is cache-line aligned, leaves room for one more int and wastes less than a line; the reference section is the last 16 bytes per slot before it and starts after every descriptor |
| `Layout.NewWriter` | management/src/main/java/org/kaazing/gateway/management/monitoring/configuration/impl/MonitorFileWriterImpl.java:101-104 | the constructor keeps the gateway id and lays out 10 slots: metadata length 1640, end of metadata 1664, reference section at 1504 |
| `Layout.ConstructedLayout` | management/src/main/java/org/kaazing/gateway/management/monitoring/configuration/impl/MonitorFileWriterImpl.java:62 | any writer laid out for `MAX_SERVICE_COUNT` slots has the layout (10, 1640, 1664, 1504) |
| `Layout.LayoutFitsJavaInt` | management/src/main/java/org/kaazing/gateway/management/monitoring/configuration/impl/MonitorFileWriterImpl.java:241-244 | for every count from 0 to 10, each layout value is a non-negative Java `int`, so the exact computation is what Java computes |
| `Layout.TotalFileLength` | management/src/main/java/org/kaazing/gateway/management/monitoring/configuration/impl/MonitorFileWriterImpl.java:123-128 | the file length is the end of the metadata plus both gateway buffers plus 10 service blocks, whenever that sum is an `int` |
| `Layout.TotalFileLengthValue` | management/src/main/java/org/kaazing/gateway/management/monitoring/configuration/impl/MonitorFileWriterImpl.java:124-127 | for the constructed writer the file is 380,634,752 bytes, below `Integer.MAX_VALUE`, so the sum does not wrap |
| `Layout.RefCell` | management/src/main/java/org/kaazing/gateway/management/monitoring/configuration/impl/MonitorFileWriterImpl.java:309-314 | slot `i`'s `k`-th reference int is `k + i` ints into the reference section as written, and `4i + k` ints in with four ints per slot |
| `Layout.MetadataViewLength` | management/src/main/java/org/kaazing/gateway/management/monitoring/configuration/impl/MonitorFileWriterImpl.java:113 | the metadata view is `metadataLength + SIZE_OF_INT` = 1644 bytes as written; with four ints per slot it must reach the end of the metadata, 1664 |
| `Metadata.FillMetaData` | management/src/main/java/org/kaazing/gateway/management/monitoring/configuration/impl/MonitorFileWriterImpl.java:279-292 | stores exactly the nine header fields and nothing else: version 1, self-references 12 and 156, the gateway id, gateway buffer offsets 0, lengths 33,554,432 and 1,048,576, and service count 0 |
| `Metadata.AddMetadataToAgronaFile` | management/src/main/java/org/kaazing/gateway/management/monitoring/configuration/impl/MonitorFileWriterImpl.java:112-116 | the view starts at offset 0 and has the metadata view length; the header it returns has the version, the default gateway lengths and a zero count |
| `Metadata.FillMetaDataInView` | management/src/main/java/org/kaazing/gateway/management/monitoring/configuration/impl/MonitorFileWriterImpl.java:279-292 | every header field `fillMetaData` stores, the gateway id string included, lies inside the metadata view |
| `Metadata.SelfReferences` | management/src/main/java/org/kaazing/gateway/management/monitoring/configuration/impl/MonitorFileWriterImpl.java:281-284 | the gateway data reference points at the gateway id field, and the service data reference points at the service count field |
| `Allocator.CreateGatewayCounterLabelsBuffer` | management/src/main/java/org/kaazing/gateway/management/monitoring/configuration/impl/MonitorFileWriterImpl.java:137-144 | the gateway labels start the data region, with the length read back from the header; only the labels reference field changes, and it then holds the view's offset |
| `Allocator.CreateGatewayCounterValuesBuffer` | management/src/main/java/org/kaazing/gateway/management/monitoring/configuration/impl/MonitorFileWriterImpl.java:153-161 | the gateway values start past the stored labels length, with the stored values length; only the values reference field changes, and it then holds the view's offset |
| `Allocator.ServiceLabelsStartExact` | management/src/main/java/org/kaazing/gateway/management/monitoring/configuration/impl/MonitorFileWriterImpl.java:174-177 | for a slot within capacity, Java's evaluation of the labels start does not wrap |
| `Allocator.CreateServiceCounterLabelsBuffer` | management/src/main/java/org/kaazing/gateway/management/monitoring/configuration/impl/MonitorFileWriterImpl.java:171-184 | a 32 MiB labels view; only the slot's first reference int changes, and it then holds the view's offset |
| `Allocator.CreateServiceCounterValuesBuffer` | management/src/main/java/org/kaazing/gateway/management/monitoring/configuration/impl/MonitorFileWriterImpl.java:194-208 | a 1 MiB values view; only the slot's third reference int changes, and it then holds the view's offset |
| `Allocator.GatewayBuffersAdjacent` | management/src/main/java/org/kaazing/gateway/management/monitoring/configuration/impl/MonitorFileWriterImpl.java:137-161 | after `fillMetaData` the gateway labels sit at 1664 with the default length, the values follow them directly and end at 34,604,672, and creating the labels first does not change the values view |
| `Allocator.ServiceBuffersOfSlot` | management/src/main/java/org/kaazing/gateway/management/monitoring/configuration/impl/MonitorFileWriterImpl.java:171-208 | slot `i`'s labels lie past both gateway buffers and `i` whole slot blocks; its values follow them directly; both lie inside the file |
| `Allocator.FirstSlotFollowsGateway` | management/src/main/java/org/kaazing/gateway/management/monitoring/configuration/impl/MonitorFileWriterImpl.java:174-176 | slot 0's labels start where the gateway values end |
| `Allocator.NextSlotFollows` | management/src/main/java/org/kaazing/gateway/management/monitoring/configuration/impl/MonitorFileWriterImpl.java:197-201 | each slot's values end where the next slot's labels start, so the data region has no gap |
| `Allocator.LastSlotEndsFile` | management/src/main/java/org/kaazing/gateway/management/monitoring/configuration/impl/MonitorFileWriterImpl.java:123-128 | the last slot's values end exactly at the computed total file length, so the file has no slack at the end |
| `Allocator.ServiceBuffersDisjoint` | management/src/main/java/org/kaazing/gateway/management/monitoring/configuration/impl/MonitorFileWriterImpl.java:171-208 | buffers of distinct slots within capacity share no byte, and neither shares a byte with the gateway buffers |
| `Allocator.SlotPastCapacityOutsideFile` | management/src/main/java/org/kaazing/gateway/management/monitoring/configuration/impl/MonitorFileWriterImpl.java:174-177 | the unchecked index 10 yields a labels buffer that starts at the end of the file |
| `Allocator.AllocationsKeepInitialized` | management/src/main/java/org/kaazing/gateway/management/monitoring/configuration/impl/MonitorFileWriterImpl.java:139-141 | no allocation disturbs the gateway lengths that later allocations read back |
| `DataRegion.TilesFromBelow` | management/src/main/java/org/kaazing/gateway/management/monitoring/configuration/impl/MonitorFileWriterImpl.java:123-128 | a run of non-empty views laid end to end never ends before it starts |
| `DataRegion.TilesBounds` | management/src/main/java/org/kaazing/gateway/management/monitoring/configuration/impl/MonitorFileWriterImpl.java:123-128 | every view of such a run lies between the run's start and end |
| `DataRegion.TilesOrdered` | management/src/main/java/org/kaazing/gateway/management/monitoring/configuration/impl/MonitorFileWriterImpl.java:171-208 | views of such a run appear in file order, so no two share a byte |
| `DataRegion.TilesExtend` | management/src/main/java/org/kaazing/gateway/management/monitoring/configuration/impl/MonitorFileWriterImpl.java:197-201 | appending a slot's labels view and the values view right behind it extends the run |
| `DataRegion.GatewayViewsTiled` | management/src/main/java/org/kaazing/gateway/management/monitoring/configuration/impl/MonitorFileWriterImpl.java:137-161 | the gateway views run end to end from the end of the metadata to where slot 0 starts |
| `DataRegion.SlotViewsExtend` | management/src/main/java/org/kaazing/gateway/management/monitoring/configuration/impl/MonitorFileWriterImpl.java:194-201 | slot `i`'s labels view starts where slot `i - 1` ends and its values view ends one whole slot block later, so the run grows by one slot |
| `DataRegion.DataRegionTiled` | management/src/main/java/org/kaazing/gateway/management/monitoring/configuration/impl/MonitorFileWriterImpl.java:171-208 | the gateway views and the views of slots `0 .. n - 1` run end to end from the end of the metadata to the end of slot `n - 1` |
| `DataRegion.DataRegionCoversFile` | management/src/main/java/org/kaazing/gateway/management/monitoring/configuration/impl/MonitorFileWriterImpl.java:123-128 | all the allocator's views cover exactly the bytes from the end of the metadata to `computeMonitorTotalFileLength()`, and no two share a byte |
| `Registrar.ServOffset` | management/src/main/java/org/kaazing/gateway/management/monitoring/configuration/impl/MonitorFileWriterImpl.java:299 | the descriptor array starts right after the service count field |
| `Registrar.FillServiceMetadata` | management/src/main/java/org/kaazing/gateway/management/monitoring/configuration/impl/MonitorFileWriterImpl.java:298-315 | stores the slot's name, and changes no int field except the count, the slot's location and the slot's four reference ints |
| `Registrar.DescriptorOffsets` | management/src/main/java/org/kaazing/gateway/management/monitoring/configuration/impl/MonitorFileWriterImpl.java:303-304 | slot `i`'s descriptor is its name at 160 + 132i followed by its location int; the last descriptor ends at 1480 |
| `Registrar.DescriptorsDisjoint` | management/src/main/java/org/kaazing/gateway/management/monitoring/configuration/impl/MonitorFileWriterImpl.java:303-306 | descriptors of distinct slots share no byte, and all lie between the header and the reference section |
| `Registrar.RefCellsInSection` | management/src/main/java/org/kaazing/gateway/management/monitoring/configuration/impl/MonitorFileWriterImpl.java:309-314 | for a slot within capacity, each reference int lies inside the reference section and inside the metadata view |
| `Registrar.RefCellsOfSlotDistinct` | management/src/main/java/org/kaazing/gateway/management/monitoring/configuration/impl/MonitorFileWriterImpl.java:309-314 | a slot's four reference ints are four different fields |
| `Registrar.RegistrationFieldsDistinct` | management/src/main/java/org/kaazing/gateway/management/monitoring/configuration/impl/MonitorFileWriterImpl.java:300-314 | the count, location and four reference ints are pairwise distinct, and none is a gateway length field |
| `Registrar.RegistrationInView` | management/src/main/java/org/kaazing/gateway/management/monitoring/configuration/impl/MonitorFileWriterImpl.java:298-315 | every field registering a slot within capacity stores lies inside the metadata view |
| `Registrar.RegistrationValues` | management/src/main/java/org/kaazing/gateway/management/monitoring/configuration/impl/MonitorFileWriterImpl.java:300-314 | after registration the count is one more (as a Java `int`), the name is stored, the location is 0, and the reference ints read 0, the labels length, 0, the values length |
| `Registrar.RegistrationKeepsInitialized` | management/src/main/java/org/kaazing/gateway/management/monitoring/configuration/impl/MonitorFileWriterImpl.java:298-315 | registering a slot within capacity keeps the gateway lengths the allocator reads |
| `Registrar.SlotPastCapacityOverlapsRefSection` | management/src/main/java/org/kaazing/gateway/management/monitoring/configuration/impl/MonitorFileWriterImpl.java:303-305 | the unchecked index 10 puts a name that starts before the reference section and runs into it |
| `Registrar.NegativeSlotResetsCount` | management/src/main/java/org/kaazing/gateway/management/monitoring/configuration/impl/MonitorFileWriterImpl.java:300-306 | the unchecked index -1 puts the slot's location int on the service count field, so the count ends at 0 whatever it held |
| `Registrar.PastCapacitySlotCounted` | management/src/main/java/org/kaazing/gateway/management/monitoring/configuration/impl/MonitorFileWriterImpl.java:300-301 | the unchecked index 10 still adds one to the service count |
| `Registrar.PastViewFromSlotEleven` | management/src/main/java/org/kaazing/gateway/management/monitoring/configuration/impl/MonitorFileWriterImpl.java:303-306 | for every index from 11 to 1,000,000, the location int lies past the 1644-byte metadata view; slot 11's name starts at 1612, inside the view, and its location int at 1740 |
| `Registrar.WrappedSlotAliases` | management/src/main/java/org/kaazing/gateway/management/monitoring/configuration/impl/MonitorFileWriterImpl.java:303-313 | the unchecked `int` index wraps: index `i + 2^30` gives the same name offset, location offset and reference ints as slot `i`, under either addressing; index 2^30 puts its location int at 288, inside the view, and index 2^30 - 1 puts it on the service count |
| `Registrar.RegisterAllCount` | management/src/main/java/org/kaazing/gateway/management/monitoring/configuration/impl/MonitorFileWriterImpl.java:300-301 | each registration adds exactly one to the count, including a repeated slot |
| `Registrar.CountAfterRegistrations` | management/src/main/java/org/kaazing/gateway/management/monitoring/configuration/impl/MonitorFileWriterImpl.java:291-301 | after `fillMetaData`, `k` registrations leave the count at `k` |
| `Activation.ActivateService` | management/src/main/java/org/kaazing/gateway/management/monitoring/configuration/impl/MonitorFileWriterImpl.java:226-233 | attaching a service stores its name in the slot's name field and leaves every other string, the gateway id included, unchanged; of the int fields it changes only the count, the slot's location and the slot's reference ints; it yields a 32 MiB labels view and a 1 MiB values view |
| `Activation.ActivationEntry` | management/src/main/java/org/kaazing/gateway/management/monitoring/configuration/impl/MonitorFileWriterImpl.java:171-208 | right after a slot within capacity is attached, its entry holds the labels offset, labels length, values offset and values length of the views just returned, under either addressing |
| `Activation.AdjacentSlotsShareRefCells` | management/src/main/java/org/kaazing/gateway/management/monitoring/configuration/impl/MonitorFileWriterImpl.java:309-314 | as written, slot `i + 1`'s first three reference ints are slot `i`'s last three |
| `Activation.SecondActivationClobbersFirst` | management/src/main/java/org/kaazing/gateway/management/monitoring/configuration/impl/MonitorFileWriterImpl.java:309-314 | as written, attaching slot 0 and then slot 1 leaves slot 0's values-offset int holding 33,554,432, so slot 0's entry no longer holds |
| `Activation.IntendedWriter` | management/src/main/java/org/kaazing/gateway/management/monitoring/configuration/impl/MonitorFileWriterImpl.java:44-55 | the corrected writer has the constructed layout, four ints per slot, and a metadata view reaching the end of the metadata |
| `Activation.IntendedRefCellsDistinct` | management/src/main/java/org/kaazing/gateway/management/monitoring/configuration/impl/MonitorFileWriterImpl.java:58 | with four ints per slot, distinct (slot, position) pairs within capacity address distinct ints |
| `Activation.IntendedEntriesExceedWrittenView` | management/src/main/java/org/kaazing/gateway/management/monitoring/configuration/impl/MonitorFileWriterImpl.java:113 | with four ints per slot, slot 9's last int ends at 1664, past the 1644-byte view as written |
| `Activation.IntendedCellUntouched` | management/src/main/java/org/kaazing/gateway/management/monitoring/configuration/impl/MonitorFileWriterImpl.java:298-315 | with four ints per slot, registering slot `j` stores none of another slot's reference ints |
| `Activation.IntendedActivationKeepsOtherEntries` | management/src/main/java/org/kaazing/gateway/management/monitoring/configuration/impl/MonitorFileWriterImpl.java:171-208 | with four ints per slot, attaching slot `j` leaves every other slot's entry holding |
| `Activation.ActivateAllKeepsInitialized` | management/src/main/java/org/kaazing/gateway/management/monitoring/configuration/impl/MonitorFileWriterImpl.java:139-156 | attachments within capacity keep the gateway lengths the allocator reads back, under either addressing |
| `Activation.IntendedEntryAfterActivations` | management/src/main/java/org/kaazing/gateway/management/monitoring/configuration/impl/MonitorFileWriterImpl.java:44-55 | with four ints per slot, after any sequence of attachments within capacity (repeats included) each attached slot's entry holds |
| `Activation.IntendedEntriesAfterActivations` | management/src/main/java/org/kaazing/gateway/management/monitoring/configuration/impl/MonitorFileWriterImpl.java:44-55 | the same for all attached slots at once: every slot attached so far can be found through its entry |

## Left out

- `getGwMonitoringEntityFactory`, and the writer half of
  `getServiceMonitoringEntityFactory`, hand over to `MMFGatewayWriter` and
  `MMFSeviceWriter`. Neither class is part of this model.
  `Activation.ActivateService` assumes that the service writer creates the
  slot's labels buffer and then its values buffer.
- `Activation.ActivateService` has no separate failure result. The code
  accepts the call and writes. A second registration of a slot, or index
  10, whose int stores all land inside the metadata view, goes through with
  the effects the lemmas above show. For indices 11 to 1,000,000, line 301
  has already bumped the count when `fillServiceMetadata` writes the location
  int past the metadata view (`Registrar.PastViewFromSlotEleven`). What
  happens then depends on the view's bounds check, which is not modelled. An
  index that wraps onto slot `i` behaves exactly as slot `i`
  (`Registrar.WrappedSlotAliases`).
- Byte-level memory is not modelled. That covers the `UnsafeBuffer` and
  `ByteBuffer` views, native byte order, and the encoding and length prefix
  of `putStringUtf8`. A string write is one opaque field, so the model does
  not show a long name running past its 128 bytes.
- Allocator.CreateGatewayCounterLabelsBuffer: assumes that the `buffer` argument it stores into at line 141 views the same file from offset 0 as the `metaDataBuffer` argument it reads from, and that `buffer` uses native byte order.
- Allocator.CreateGatewayCounterValuesBuffer: assumes that the `buffer` argument it stores into at line 158 views the same file from offset 0 as the `metaDataBuffer` argument it reads from, and that `buffer` uses native byte order.
- Allocator.CreateServiceCounterLabelsBuffer: assumes that the `buffer` argument it stores into at line 181 views the same file from offset 0 as the `metaDataBuffer` argument it reads from, and that `buffer` uses native byte order.
- Allocator.CreateServiceCounterValuesBuffer: assumes that the `buffer` argument it stores into at line 205 views the same file from offset 0 as the `metaDataBuffer` argument it reads from, and that `buffer` uses native byte order.
- The allocators' byte order: the allocators store with `ByteBuffer.putInt`.
  That call uses the `ByteBuffer`'s own order, which is big-endian for a
  fresh or mapped buffer unless the caller changes it. `fillMetaData` and
  `fillServiceMetadata` write through the `UnsafeBuffer` in native order.
  Two results rest on the assumptions in the four lines above: the recorded
  offset equals the view's offset, and `Activation.EntryHolds` holds.
- Agrona's bounds checks on views are not modelled. Instead, lemmas prove
  that the writes within capacity fall inside the views.
- `BitUtil` is not part of this model. `SIZE_OF_INT` = 4 and
  `CACHE_LINE_LENGTH` = 64 are taken as constants, and `align` is modelled
  by its documented meaning for power-of-two alignments.
- Concurrency and readers of the mapped file are left out. The writer is
  single-threaded and readers are never coordinated with.
- Layout.SetServicesCount: computed with unbounded integers rather than
  Java `int` arithmetic. `Layout.LayoutFitsJavaInt` shows that the two agree
  for every count from 0 to 10, and the constructor uses 10.
- JavaInt.Add: the contract gives the exact sum only when it is in range. The wrapped value is `Wrap`'s, which `Wrap`'s own contract and `JavaInt.WrapUnique` characterise, and `JavaInt.AddResidue` states that the result agrees with the exact sum modulo 2^32; repeating that on every addition makes the offset proofs too costly.
- JavaInt.Mul: the same as `JavaInt.Add`, for products, with `JavaInt.MulResidue`.

## Findings

| source | as written | input that shows it | evidently intended | confidence | as-written member | corrected member |
|---|---|---|---|---|---|---|
| management/src/main/java/org/kaazing/gateway/management/monitoring/configuration/impl/MonitorFileWriterImpl.java:309-314 | slot `index`'s reference ints are written at `serviceRefSection + (index + k) * SIZE_OF_INT` for k = 0..3, and likewise at lines 181 and 205. Consecutive slots are one int apart, although the section is sized at four ints per slot. | attach slot 0, then slot 1. Slot 1's registration stores the labels length 33,554,432 at offset 1512, which holds slot 0's values offset 68,159,104. | `serviceRefSection + (index * OFFSETS_PER_SERVICE + k) * SIZE_OF_INT`. The metadata view at line 113 must then reach `endOfMetadata`, because slot 9's last int ends at 1664, past the 1644-byte view. | high, not executed | `Activation.SecondActivationClobbersFirst` | `Activation.IntendedEntriesAfterActivations` |

=== FILE: activation.dfy ===
/**
 Attaching a service to a slot: the registrar seeds the slot's reference
 ints, then the allocator creates the slot's labels and values buffers and
 records their offsets in the first and third of those ints.

 As written, slot `i`'s `k`-th reference int sits `i + k` ints into the
 reference section, so consecutive slots share three of their four ints and
 a later attachment overwrites an earlier slot's entries. With four ints per
 slot (the `Intended` addressing, together with a metadata view that reaches
 the data region) every slot keeps its own entry.
 */
module Activation {
  import opened JavaInt
  import opened Format
  import opened Layout
  import opened Header
  import opened Metadata
  import opened Allocator
  import opened Registrar

  /** The outcome of attaching one service. */
  datatype Activation = Activation(labels: Buffer, values: Buffer, header: Header)

  /** The header fields one attachment needs to be present. */
  predicate Prepared(h: Header) {
    GwLabelsLengthOffset in h.ints && GwValuesLengthOffset in h.ints && NoOfServicesOffset in h.ints
  }

  /** `fillServiceMetadata`, then the slot's labels buffer, then its values
      buffer. */
  function ActivateService(w: Writer, h: Header, serviceName: string, index: int): (a: Activation)
    requires IsInt(index) && Prepared(h)
    ensures Prepared(a.header)
    ensures IntsChangedOnly(h, a.header, ServiceIntWrites(w, index))
    ensures a.labels.length == ServiceCounterLabelsBufferLength
    ensures a.values.length == ServiceCounterValuesBufferLength
    ensures a.header.strings == h.strings[ServiceNameOffset(index) := serviceName]
  {
    var registered := FillServiceMetadata(w, h, serviceName, index);
    var labels := CreateServiceCounterLabelsBuffer(w, registered, index);
    var values := CreateServiceCounterValuesBuffer(w, labels.header, index);
    Activation(labels.buffer, values.buffer, values.header)
  }

  /** Where slot `i`'s labels start when the gateway lengths are the
      defaults: past both gateway buffers and `i` whole slots. */
  function SlotLabelsOffset(w: Writer, i: int): (r: int) {
    w.layout.endOfMetadata + GatewayCounterLabelsBufferLength + GatewayCounterValuesBufferLength
    + i * ServiceBlockLength
  }

  /** Slot `i`'s reference entry as a reader expects it: labels offset,
      labels length, values offset, values length. */
  predicate EntryHolds(w: Writer, h: Header, i: int)
    requires IsInt(i)
  {
    && RefCell(w, i, 0) in h.ints && h.ints[RefCell(w, i, 0)] == SlotLabelsOffset(w, i)
    && RefCell(w, i, 1) in h.ints && h.ints[RefCell(w, i, 1)] == ServiceCounterLabelsBufferLength
    && RefCell(w, i, 2) in h.ints
    && h.ints[RefCell(w, i, 2)] == SlotLabelsOffset(w, i) + ServiceCounterLabelsBufferLength
    && RefCell(w, i, 3) in h.ints && h.ints[RefCell(w, i, 3)] == ServiceCounterValuesBufferLength
  }

  /** Right after a slot within capacity is attached, its entry holds,
      whichever addressing is used, and the buffers are the ones the entry
      describes. */
  lemma ActivationEntry(w: Writer, h: Header, serviceName: string, i: int)
    requires Constructed(w) && Initialized(h)
    requires 0 <= i < MaxServiceCount
    ensures var a := ActivateService(w, h, serviceName, i);
      && EntryHolds(w, a.header, i)
      && Initialized(a.header)
      && a.labels.offset == SlotLabelsOffset(w, i)
      && a.values.offset == a.labels.End()
  {
    var c0, c1, c2, c3 := RefCell(w, i, 0), RefCell(w, i, 1), RefCell(w, i, 2), RefCell(w, i, 3);
    var registered := FillServiceMetadata(w, h, serviceName, i);
    assert Initialized(registered)
        && registered.ints[c1] == ServiceCounterLabelsBufferLength
        && registered.ints[c3] == ServiceCounterValuesBufferLength
    by {
      RegistrationKeepsInitialized(w, h, serviceName, i);
      RegistrationValues(w, h, serviceName, i);
    }
    var labels := CreateServiceCounterLabelsBuffer(w, registered, i);
    var values := CreateServiceCounterValuesBuffer(w, labels.header, i);
    assert labels.buffer.offset == SlotLabelsOffset(w, i)
        && values.buffer.offset == labels.buffer.End()
        && Initialized(values.header)
    by {
      ServiceBuffersOfSlot(w, registered, i);
      AllocationsKeepInitialized(w, registered, i);
      ServiceBuffersOfSlot(w, labels.header, i);
      AllocationsKeepInitialized(w, labels.header, i);
    }
    assert c0 != c1 && c0 != c2 && c0 != c3 && c2 != c1 && c2 != c3 by {
      RegistrationFieldsDistinct(w, i);
    }
    assert ActivateService(w, h, serviceName, i) == Activation(labels.buffer, values.buffer, values.header);
  }

  /** As written, slot `i + 1`'s first three reference ints are slot `i`'s
      last three. */
  lemma AdjacentSlotsShareRefCells(w: Writer, i: int, k: int)
    requires Constructed(w) && w.addressing == AsWritten
    requires 0 <= i && i + 1 < MaxServiceCount && 0 <= k < OffsetsPerService - 1
    ensures RefCell(w, i + 1, k) == RefCell(w, i, k + 1)
  {
    ConstructedLayout(w);
  }

  /** As written, attaching slot 1 after slot 0 loses slot 0's values
      offset: the int a reader takes for it holds the labels length. */
  lemma SecondActivationClobbersFirst(gatewayId: string)
    ensures var w := NewWriter(gatewayId);
      var first := ActivateService(w, FillMetaData(w, Blank), "first", 0);
      var second := ActivateService(w, first.header, "second", 1);
      && EntryHolds(w, first.header, 0)
      && second.header.ints[RefCell(w, 0, 2)] == ServiceCounterLabelsBufferLength
      && second.header.ints[RefCell(w, 0, 2)] != first.values.offset
      && !EntryHolds(w, second.header, 0)
  {
    var w := NewWriter(gatewayId);
    var h := FillMetaData(w, Blank);
    ActivationEntry(w, h, "first", 0);
    var first := ActivateService(w, h, "first", 0);
    ActivationEntry(w, first.header, "second", 1);
    AdjacentSlotsShareRefCells(w, 0, 1);
  }

  /** The corrected writer: four reference ints per slot. */
  function IntendedWriter(gatewayId: string): (w: Writer)
    ensures Constructed(w) && w.addressing == Intended && w.gatewayId == gatewayId
    ensures MetadataViewLength(w) == w.layout.endOfMetadata
  {
    NewWriter(gatewayId).(addressing := Intended)
  }

  /** With four ints per slot, distinct (slot, position) pairs address
      distinct ints. */
  lemma IntendedRefCellsDistinct(w: Writer, i: int, k: int, j: int, l: int)
    requires Constructed(w) && w.addressing == Intended
    requires 0 <= i < MaxServiceCount && 0 <= j < MaxServiceCount
    requires 0 <= k < OffsetsPerService && 0 <= l < OffsetsPerService
    requires i != j || k != l
    ensures RefCell(w, i, k) != RefCell(w, j, l)
  {
    ConstructedLayout(w);
  }

  /** The intended entries do not fit the metadata view as written: slot 9's
      last int ends at the end of the metadata, 1664, past
      `metadataLength + SIZE_OF_INT`. */
  lemma IntendedEntriesExceedWrittenView(gatewayId: string)
    ensures var w := IntendedWriter(gatewayId);
      && RefCell(w, MaxServiceCount - 1, 3) + SizeOfInt == 1664
      && RefCell(w, MaxServiceCount - 1, 3) + SizeOfInt == w.layout.endOfMetadata
      && RefCell(w, MaxServiceCount - 1, 3) + SizeOfInt
         > MetadataViewLength(NewWriter(gatewayId))
  {
    ConstructedLayout(IntendedWriter(gatewayId));
  }

  /** With four ints per slot, registering slot `j` writes none of another
      slot's reference ints. */
  lemma IntendedCellUntouched(w: Writer, i: int, k: int, j: int)
    requires Constructed(w) && w.addressing == Intended
    requires 0 <= i < MaxServiceCount && 0 <= j < MaxServiceCount && i != j
    requires 0 <= k < OffsetsPerService
    ensures RefCell(w, i, k) !in ServiceIntWrites(w, j)
  {
    ConstructedLayout(w);
    DescriptorOffsets(j);
    RefCellsInSection(w, i, k);
    IntendedRefCellsDistinct(w, i, k, j, 0);
    IntendedRefCellsDistinct(w, i, k, j, 1);
    IntendedRefCellsDistinct(w, i, k, j, 2);
    IntendedRefCellsDistinct(w, i, k, j, 3);
  }

  /** With four ints per slot, attaching slot `j` leaves every other slot's
      entry as it was. */
  lemma IntendedActivationKeepsOtherEntries(w: Writer, h: Header, serviceName: string, i: int, j: int)
    requires Constructed(w) && w.addressing == Intended && Initialized(h)
    requires 0 <= i < MaxServiceCount && 0 <= j < MaxServiceCount && i != j
    requires EntryHolds(w, h, i)
    ensures EntryHolds(w, ActivateService(w, h, serviceName, j).header, i)
  {
    IntendedCellUntouched(w, i, 0, j);
    IntendedCellUntouched(w, i, 1, j);
    IntendedCellUntouched(w, i, 2, j);
    IntendedCellUntouched(w, i, 3, j);
  }

  /** Attaching each registration in turn. */
  function ActivateAll(w: Writer, h: Header, regs: seq<Registration>): (r: Header)
    requires forall k :: 0 <= k < |regs| ==> IsInt(regs[k].index)
    requires Prepared(h)
    ensures Prepared(r) && h.ints.Keys <= r.ints.Keys
    decreases |regs|
  {
    if |regs| == 0 then h
    else
      var last := regs[|regs| - 1];
      ActivateService(w, ActivateAll(w, h, regs[..|regs| - 1]), last.serviceName, last.index).header
  }

  /** The last attachment is applied to the result of the earlier ones. */
  lemma ActivateAllStep(w: Writer, h: Header, regs: seq<Registration>)
    requires forall k :: 0 <= k < |regs| ==> IsInt(regs[k].index)
    requires Prepared(h) && |regs| > 0
    ensures var last := regs[|regs| - 1];
      ActivateAll(w, h, regs)
        == ActivateService(w, ActivateAll(w, h, regs[..|regs| - 1]), last.serviceName, last.index).header
  {
  }

  /** Attachments within capacity keep the gateway lengths the allocator
      reads, whichever addressing is used. */
  lemma {:induction false} ActivateAllKeepsInitialized(w: Writer, h: Header, regs: seq<Registration>)
    requires Constructed(w) && Initialized(h)
    requires forall k :: 0 <= k < |regs| ==> 0 <= regs[k].index < MaxServiceCount
    ensures Initialized(ActivateAll(w, h, regs))
  {
    if |regs| > 0 {
      var prefix := regs[..|regs| - 1];
      var last := regs[|regs| - 1];
      ActivateAllKeepsInitialized(w, h, prefix);
      ActivationEntry(w, ActivateAll(w, h, prefix), last.serviceName, last.index);
    }
  }

  /** With four ints per slot, after any sequence of attachments within
      capacity, repeats included, the `k`-th attached slot's entry holds. */
  lemma {:induction false} IntendedEntryAfterActivations(
    w: Writer, h: Header, regs: seq<Registration>, k: int)
    requires Constructed(w) && w.addressing == Intended && Initialized(h)
    requires forall n :: 0 <= n < |regs| ==> 0 <= regs[n].index < MaxServiceCount
    requires 0 <= k < |regs|
    ensures EntryHolds(w, ActivateAll(w, h, regs), regs[k].index)
  {
    var prefix := regs[..|regs| - 1];
    var last := regs[|regs| - 1];
    var before := ActivateAll(w, h, prefix);
    ActivateAllKeepsInitialized(w, h, prefix);
    ActivateAllStep(w, h, regs);
    if k == |regs| - 1 || regs[k].index == last.index {
      ActivationEntry(w, before, last.serviceName, last.index);
    } else {
      assert regs[k] == prefix[k];
      IntendedEntryAfterActivations(w, h, prefix, k);
      IntendedActivationKeepsOtherEntries(w, before, last.serviceName, regs[k].index, last.index);
    }
  }

  /** With four ints per slot, every slot attached so far can be found by a
      reader through its entry. */
  lemma IntendedEntriesAfterActivations(w: Writer, h: Header, regs: seq<Registration>)
    requires Constructed(w) && w.addressing == Intended && Initialized(h)
    requires forall n :: 0 <= n < |regs| ==> 0 <= regs[n].index < MaxServiceCount
    ensures forall k :: 0 <= k < |regs| ==> EntryHolds(w, ActivateAll(w, h, regs), regs[k].index)
  {
    forall k | 0 <= k < |regs|
      ensures EntryHolds(w, ActivateAll(w, h, regs), regs[k].index)
    {
      IntendedEntryAfterActivations(w, h, regs, k);
    }
  }
}

=== FILE: allocator.dfy ===
/**
 The buffer allocator: the four `create*Buffer` operations. Each computes
 the absolute offset and length of one counter buffer and records the
 offset back into the header. The gateway buffer lengths are read back from
 the header rather than taken from the constants.
 */
module Allocator {
  import opened JavaInt
  import opened Format
  import opened Layout
  import opened Header
  import opened Metadata

  /** The bytes one slot's buffers take: its labels, then its values. */
  const ServiceBlockLength: int := ServiceCounterValuesBufferLength + ServiceCounterLabelsBufferLength

  /** `createGatewayCounterLabelsBuffer`: the gateway labels start the data
      region. */
  function CreateGatewayCounterLabelsBuffer(w: Writer, h: Header): (a: Allocation)
    requires GwLabelsLengthOffset in h.ints
    ensures a.buffer.offset == w.layout.endOfMetadata
    ensures a.buffer.length == h.ints[GwLabelsLengthOffset]
    ensures IntsChangedOnly(h, a.header, {GwLabelsReferenceOffset})
    ensures a.header.ints[GwLabelsReferenceOffset] == a.buffer.offset
    ensures a.header.strings == h.strings
  {
    var offset := w.layout.endOfMetadata;
    var length := h.ints[MetadataItemOffset(GwLabelsLengthOffset)];
    Allocation(Buffer(offset, length),
               PutInt(h, MetadataItemOffset(GwLabelsReferenceOffset), offset))
  }

  /** `createGatewayCounterValuesBuffer`: the gateway values follow the
      gateway labels. */
  function CreateGatewayCounterValuesBuffer(w: Writer, h: Header): (a: Allocation)
    requires GwLabelsLengthOffset in h.ints && GwValuesLengthOffset in h.ints
    ensures IsInt(w.layout.endOfMetadata + h.ints[GwLabelsLengthOffset])
            ==> a.buffer.offset == w.layout.endOfMetadata + h.ints[GwLabelsLengthOffset]
    ensures a.buffer.length == h.ints[GwValuesLengthOffset]
    ensures IntsChangedOnly(h, a.header, {GwValuesReferenceOffset})
    ensures a.header.ints[GwValuesReferenceOffset] == a.buffer.offset
    ensures a.header.strings == h.strings
  {
    var offset := Add(w.layout.endOfMetadata, h.ints[MetadataItemOffset(GwLabelsLengthOffset)]);
    var length := h.ints[MetadataItemOffset(GwValuesLengthOffset)];
    Allocation(Buffer(offset, length),
               PutInt(h, MetadataItemOffset(GwValuesReferenceOffset), offset))
  }

  /** Where slot `index`'s labels start, evaluated as Java evaluates it. */
  function ServiceLabelsStart(w: Writer, h: Header, index: int): (r: int)
    requires GwLabelsLengthOffset in h.ints && GwValuesLengthOffset in h.ints
  {
    Add(Add(Add(w.layout.endOfMetadata, h.ints[MetadataItemOffset(GwLabelsLengthOffset)]),
            h.ints[MetadataItemOffset(GwValuesLengthOffset)]),
        Mul(index, ServiceBlockLength))
  }

  /** Within capacity, Java evaluates the labels start without wrapping. */
  lemma ServiceLabelsStartExact(w: Writer, h: Header, index: int)
    requires Constructed(w) && Initialized(h)
    requires 0 <= index < MaxServiceCount
    ensures ServiceLabelsStart(w, h, index)
         == 1664 + 33_554_432 + 1_048_576 + index * ServiceBlockLength
  {
    ConstructedLayout(w);
    assert 0 <= index * ServiceBlockLength <= 9 * ServiceBlockLength;
  }

  /** `createServiceCounterLabelsBuffer`: past both gateway buffers and
      `index` whole slots. The offset goes to the slot's first reference int. */
  function CreateServiceCounterLabelsBuffer(w: Writer, h: Header, index: int): (a: Allocation)
    requires IsInt(index)
    requires GwLabelsLengthOffset in h.ints && GwValuesLengthOffset in h.ints
    ensures a.buffer.length == ServiceCounterLabelsBufferLength
    ensures IntsChangedOnly(h, a.header, {RefCell(w, index, 0)})
    ensures a.header.ints[RefCell(w, index, 0)] == a.buffer.offset
    ensures a.header.strings == h.strings
  {
    var offset := ServiceLabelsStart(w, h, index);
    var length := ServiceCounterLabelsBufferLength;
    Allocation(Buffer(offset, length), PutInt(h, RefCell(w, index, 0), offset))
  }

  /** `createServiceCounterValuesBuffer`: right after the slot's labels. The
      offset goes to the slot's third reference int. */
  function CreateServiceCounterValuesBuffer(w: Writer, h: Header, index: int): (a: Allocation)
    requires IsInt(index)
    requires GwLabelsLengthOffset in h.ints && GwValuesLengthOffset in h.ints
    ensures a.buffer.length == ServiceCounterValuesBufferLength
    ensures IntsChangedOnly(h, a.header, {RefCell(w, index, 2)})
    ensures a.header.ints[RefCell(w, index, 2)] == a.buffer.offset
    ensures a.header.strings == h.strings
  {
    var offset := Add(ServiceLabelsStart(w, h, index), ServiceCounterLabelsBufferLength);
    var length := ServiceCounterValuesBufferLength;
    Allocation(Buffer(offset, length), PutInt(h, RefCell(w, index, 2), offset))
  }

  /** The gateway buffers after `fillMetaData`: labels at the data region
      start, values right behind them, whichever order they are created in. */
  lemma GatewayBuffersAdjacent(w: Writer, h: Header)
    requires Constructed(w) && Initialized(h)
    ensures var labels := CreateGatewayCounterLabelsBuffer(w, h);
      var values := CreateGatewayCounterValuesBuffer(w, labels.header);
      && labels.buffer == Buffer(w.layout.endOfMetadata, GatewayCounterLabelsBufferLength)
      && values.buffer.offset == labels.buffer.End()
      && values.buffer.length == GatewayCounterValuesBufferLength
      && values.buffer == CreateGatewayCounterValuesBuffer(w, h).buffer
      && values.buffer.End() == 34_604_672
      && values.header.ints[GwLabelsReferenceOffset] == 1664
      && values.header.ints[GwValuesReferenceOffset] == 33_556_096
  {
  }

  /** Slot `i`'s two buffers: labels past the gateway buffers and `i` whole
      slots, values immediately after the labels. */
  lemma ServiceBuffersOfSlot(w: Writer, h: Header, i: int)
    requires Constructed(w) && Initialized(h)
    requires 0 <= i < MaxServiceCount
    ensures var labels := CreateServiceCounterLabelsBuffer(w, h, i).buffer;
      var values := CreateServiceCounterValuesBuffer(w, h, i).buffer;
      && labels.offset == w.layout.endOfMetadata + GatewayCounterLabelsBufferLength
                          + GatewayCounterValuesBufferLength + i * ServiceBlockLength
      && labels.length == ServiceCounterLabelsBufferLength
      && values.offset == labels.End()
      && values.length == ServiceCounterValuesBufferLength
      && w.layout.endOfMetadata <= labels.offset
      && values.End() <= TotalFileLength(w)
  {
    ConstructedLayout(w);
    TotalFileLengthValue(w);
    ServiceLabelsStartExact(w, h, i);
    var start := ServiceLabelsStart(w, h, i);
    assert CreateServiceCounterLabelsBuffer(w, h, i).buffer.offset == start;
    assert CreateServiceCounterValuesBuffer(w, h, i).buffer.offset
        == Add(start, ServiceCounterLabelsBufferLength);
    assert start <= 1664 + 33_554_432 + 1_048_576 + 9 * ServiceBlockLength;
  }

  /** Slot 0's labels start where the gateway values end. */
  lemma FirstSlotFollowsGateway(w: Writer, h: Header)
    requires Constructed(w) && Initialized(h)
    ensures CreateServiceCounterLabelsBuffer(w, h, 0).buffer.offset
         == CreateGatewayCounterValuesBuffer(w, h).buffer.End()
  {
    ConstructedLayout(w);
    ServiceBuffersOfSlot(w, h, 0);
  }

  /** Each slot's values end where the next slot's labels start. */
  lemma NextSlotFollows(w: Writer, h: Header, i: int)
    requires Constructed(w) && Initialized(h)
    requires 0 <= i && i + 1 < MaxServiceCount
    ensures CreateServiceCounterValuesBuffer(w, h, i).buffer.End()
         == CreateServiceCounterLabelsBuffer(w, h, i + 1).buffer.offset
  {
    ServiceBuffersOfSlot(w, h, i);
    ServiceBuffersOfSlot(w, h, i + 1);
    assert (i + 1) * ServiceBlockLength == i * ServiceBlockLength + ServiceBlockLength;
  }

  /** The last slot's values end exactly at the end of the file. */
  lemma LastSlotEndsFile(w: Writer, h: Header)
    requires Constructed(w) && Initialized(h)
    ensures CreateServiceCounterValuesBuffer(w, h, MaxServiceCount - 1).buffer.End()
         == TotalFileLength(w)
  {
    ConstructedLayout(w);
    TotalFileLengthValue(w);
    ServiceBuffersOfSlot(w, h, MaxServiceCount - 1);
  }

  /** Buffers of distinct slots share no byte, and none shares a byte with
      the gateway buffers. */
  lemma ServiceBuffersDisjoint(w: Writer, h: Header, i: int, j: int)
    requires Constructed(w) && Initialized(h)
    requires 0 <= i < MaxServiceCount && 0 <= j < MaxServiceCount && i != j
    ensures var li := CreateServiceCounterLabelsBuffer(w, h, i).buffer;
      var vi := CreateServiceCounterValuesBuffer(w, h, i).buffer;
      var lj := CreateServiceCounterLabelsBuffer(w, h, j).buffer;
      var vj := CreateServiceCounterValuesBuffer(w, h, j).buffer;
      && Disjoint(li, lj) && Disjoint(li, vj) && Disjoint(vi, lj) && Disjoint(vi, vj)
      && Disjoint(li, CreateGatewayCounterLabelsBuffer(w, h).buffer)
      && Disjoint(li, CreateGatewayCounterValuesBuffer(w, h).buffer)
      && Disjoint(vi, CreateGatewayCounterLabelsBuffer(w, h).buffer)
      && Disjoint(vi, CreateGatewayCounterValuesBuffer(w, h).buffer)
  {
    ConstructedLayout(w);
    GatewayBuffersAdjacent(w, h);
    assert ServiceBlockLength == 34_603_008;
    ServiceBuffersOfSlot(w, h, i);
    ServiceBuffersOfSlot(w, h, j);
    if i < j {
      assert i * ServiceBlockLength + ServiceBlockLength <= j * ServiceBlockLength;
    } else {
      assert j * ServiceBlockLength + ServiceBlockLength <= i * ServiceBlockLength;
    }
  }

  /** The slot index is not checked: slot `MAX_SERVICE_COUNT` would get a
      labels buffer that starts at the end of the file. */
  lemma SlotPastCapacityOutsideFile(w: Writer, h: Header)
    requires Constructed(w) && Initialized(h)
    ensures CreateServiceCounterLabelsBuffer(w, h, MaxServiceCount).buffer.offset == TotalFileLength(w)
  {
  }

  /** No allocation disturbs the lengths later allocations read back. */
  lemma AllocationsKeepInitialized(w: Writer, h: Header, i: int)
    requires Constructed(w) && Initialized(h)
    requires 0 <= i < MaxServiceCount
    ensures Initialized(CreateGatewayCounterLabelsBuffer(w, h).header)
    ensures Initialized(CreateGatewayCounterValuesBuffer(w, h).header)
    ensures Initialized(CreateServiceCounterLabelsBuffer(w, h, i).header)
    ensures Initialized(CreateServiceCounterValuesBuffer(w, h, i).header)
  {
  }
}

=== FILE: format.dfy ===
/**
 The fixed constants of the monitoring ("counters") file format: sizes,
 header field offsets and buffer lengths, as `MonitorFileWriterImpl`
 declares them, together with its `metadataItemOffset` helpers.

 `SizeOfInt` and `CacheLineLength` come from Agrona's `BitUtil`, which is not
 part of this model; they are taken as 4 and 64.
 */
module Format {
  import opened JavaInt

  const SizeOfInt: int := 4
  const CacheLineLength: int := 64

  const OffsetsPerService: int := 4
  const NumberOfIntsPerService: int := 5
  const NumberOfIntsInHeader: int := 8
  const SizeOfString: int := 128
  const MaxServiceCount: int := 10

  const MonitorVersion: int := 1

  // Header field offsets, each derived from the previous one.
  const MonitorVersionOffset: int := 0
  const MetaDataOffset: int := MonitorVersionOffset
  const GwDataReferenceOffset: int := MonitorVersionOffset + SizeOfInt
  const ServiceDataReferenceOffset: int := GwDataReferenceOffset + SizeOfInt
  const GwIdOffset: int := ServiceDataReferenceOffset + SizeOfInt
  const GwDataOffset: int := GwIdOffset
  const GwLabelsReferenceOffset: int := GwIdOffset + SizeOfString
  const GwLabelsLengthOffset: int := GwLabelsReferenceOffset + SizeOfInt
  const GwValuesReferenceOffset: int := GwLabelsLengthOffset + SizeOfInt
  const GwValuesLengthOffset: int := GwValuesReferenceOffset + SizeOfInt
  const NoOfServicesOffset: int := GwValuesLengthOffset + SizeOfInt
  const ServiceDataOffset: int := NoOfServicesOffset

  // Counter buffer lengths in bytes.
  const GatewayCounterValuesBufferLength: int := 1024 * 1024
  const GatewayCounterLabelsBufferLength: int := 32 * GatewayCounterValuesBufferLength
  const ServiceCounterValuesBufferLength: int := 1024 * 1024
  const ServiceCounterLabelsBufferLength: int := 32 * ServiceCounterValuesBufferLength

  /** The header's integer fields, the ones `fillMetaData` writes. */
  const HeaderIntFields: set<int> :=
    {MonitorVersionOffset, GwDataReferenceOffset, ServiceDataReferenceOffset,
     GwLabelsReferenceOffset, GwLabelsLengthOffset, GwValuesReferenceOffset,
     GwValuesLengthOffset, NoOfServicesOffset}

  /** `monitorVersionOffset(base)`: where the version lies in a buffer that
      starts at `base`. */
  function MonitorVersionAt(baseOffset: int): (r: int)
    ensures IsInt(baseOffset) ==> r == baseOffset
  {
    Add(baseOffset, MonitorVersionOffset)
  }

  /** `metadataRelativeOffset(base, offset)`: a header field's position in a
      buffer whose metadata starts at `base`. */
  function MetadataRelativeOffset(baseOffset: int, offset: int): (r: int)
    ensures IsInt(baseOffset + offset) && IsInt(baseOffset) ==> r == baseOffset + offset
  {
    Add(Add(baseOffset, MetaDataOffset), offset)
  }

  /** `metadataItemOffset(offset)`: the metadata starts at file offset 0, so a
      header field's file offset is its own layout offset. */
  function MetadataItemOffset(offset: int): (r: int)
    ensures IsInt(offset) ==> r == offset
  {
    MetadataRelativeOffset(0, offset)
  }
}

=== FILE: header.dfy ===
/**
 The mapped memory the writer touches, at the granularity it writes it: an
 int-valued field per byte offset, and a string per string-slot offset.
 A key is present once the writer has stored that field; a field never
 stored holds whatever the mapping held before, so it is absent here.
 String encoding is left opaque: a string write stores the whole string at
 the slot's offset.
 */
module Header {

  datatype Header = Header(ints: map<int, int>, strings: map<int, string>)

  /** A view of the bytes `[offset, offset + length)` of the mapped file, as
      an `UnsafeBuffer` wraps them. */
  datatype Buffer = Buffer(offset: int, length: int) {
    function End(): int { offset + length }
  }

  /** Two views that share no byte. */
  predicate Disjoint(a: Buffer, b: Buffer) {
    a.End() <= b.offset || b.End() <= a.offset
  }

  /** What an allocating operation yields: the view and the updated memory. */
  datatype Allocation = Allocation(buffer: Buffer, header: Header)

  /** A mapping nothing has been written to yet. */
  const Blank: Header := Header(map[], map[])

  /** `putInt(offset, value)`. */
  function PutInt(h: Header, offset: int, value: int): Header {
    h.(ints := h.ints[offset := value])
  }

  /** `putStringUtf8(offset, value, nativeOrder)`. */
  function PutString(h: Header, offset: int, value: string): Header {
    h.(strings := h.strings[offset := value])
  }

  /** `r` is `h` with int fields stored only at the offsets in `written`:
      those are present afterwards and every other field is unchanged. */
  ghost predicate IntsChangedOnly(h: Header, r: Header, written: set<int>) {
    && r.ints.Keys == h.ints.Keys + written
    && forall o :: o in h.ints && o !in written ==> r.ints[o] == h.ints[o]
  }
}

=== FILE: javaint.dfy ===
/**
 Java's 32-bit two's-complement `int`.

 Dafny integers are unbounded; the monitoring-file writer computes its
 offsets with Java `int` arithmetic, which wraps modulo 2^32. `Add` and `Mul`
 model one Java `+` or `*` each, so an expression of the source is modelled
 by nesting them exactly as Java evaluates it (left to right).
 */
module JavaInt {

  const Modulus: int := 0x1_0000_0000
  const MinValue: int := -0x8000_0000
  const MaxValue: int := 0x7fff_ffff

  /** True iff `x` is representable as a Java `int`. */
  predicate IsInt(x: int) {
    MinValue <= x <= MaxValue
  }

  /** The Java `int` that a mathematical result `x` wraps to. */
  function Wrap(x: int): (r: int)
    ensures IsInt(r)
    ensures (x - r) % Modulus == 0
    ensures IsInt(x) ==> r == x
  {
    var m := x % Modulus;
    assert x == (x / Modulus) * Modulus + m;
    if m <= MaxValue then m else m - Modulus
  }

  /** Wrapping is determined by the residue: the Java `int` congruent to `x`
      modulo 2^32 is unique. */
  lemma WrapUnique(x: int, r: int)
    requires IsInt(r)
    requires (x - r) % Modulus == 0
    ensures Wrap(x) == r
  {
    var w := Wrap(x);
    var q1 := (x - r) / Modulus;
    var q2 := (x - w) / Modulus;
    assert x - r == q1 * Modulus;
    assert x - w == q2 * Modulus;
    assert w - r == (q1 - q2) * Modulus;
  }

  /** `x` and `y` agree modulo 2^32, so Java cannot tell them apart. */
  predicate Congruent(x: int, y: int) {
    (x - y) % Modulus == 0
  }

  /** Congruence is symmetric and transitive. */
  lemma CongruentSymTrans(x: int, y: int, z: int)
    requires Congruent(x, y) && Congruent(y, z)
    ensures Congruent(y, x) && Congruent(x, z)
  {
    var p := (x - y) / Modulus;
    var q := (y - z) / Modulus;
    assert x - y == p * Modulus;
    assert y - z == q * Modulus;
    assert y - x == (-p) * Modulus;
    assert x - z == (p + q) * Modulus;
  }

  /** Congruent summands give congruent sums. */
  lemma CongruentSum(a: int, b: int, c: int, d: int)
    requires Congruent(a, c) && Congruent(b, d)
    ensures Congruent(a + b, c + d)
  {
    var p := (a - c) / Modulus;
    var q := (b - d) / Modulus;
    assert a - c == p * Modulus;
    assert b - d == q * Modulus;
    assert (a + b) - (c + d) == (p + q) * Modulus;
  }

  /** Congruent factors give congruent products with the same factor. */
  lemma CongruentScale(a: int, c: int, k: int)
    requires Congruent(a, c)
    ensures Congruent(a * k, c * k)
  {
    var p := (a - c) / Modulus;
    assert a - c == p * Modulus;
    assert a * k - c * k == (a - c) * k;
    assert (a - c) * k == (p * k) * Modulus;
  }

  /** Two Java `int`s that agree modulo 2^32 are equal. */
  lemma CongruentInts(x: int, y: int)
    requires IsInt(x) && IsInt(y) && Congruent(x, y)
    ensures x == y
  {
    WrapUnique(x, y);
  }

  /** Two Java `int`s whose exact counterparts `px` and `py` agree modulo
      2^32 are equal. */
  lemma CongruentIntsVia(x: int, px: int, y: int, py: int)
    requires IsInt(x) && IsInt(y)
    requires Congruent(px, x) && Congruent(py, y) && Congruent(px, py)
    ensures x == y
  {
    CongruentSymTrans(px, x, x);
    CongruentSymTrans(x, px, py);
    CongruentSymTrans(x, py, y);
    CongruentInts(x, y);
  }

  /** Java `a + b` on `int` operands. */
  function Add(a: int, b: int): (r: int)
    ensures IsInt(r)
    ensures IsInt(a + b) ==> r == a + b
  {
    if IsInt(a + b) then a + b else Wrap(a + b)
  }

  /** Java `a * b` on `int` operands. */
  function Mul(a: int, b: int): (r: int)
    ensures IsInt(r)
    ensures IsInt(a * b) ==> r == a * b
  {
    if IsInt(a * b) then a * b else Wrap(a * b)
  }

  /** A Java sum agrees with the exact sum modulo 2^32. */
  lemma AddResidue(a: int, b: int)
    ensures Congruent(a + b, Add(a, b))
  {
  }

  /** A Java product agrees with the exact product modulo 2^32. */
  lemma MulResidue(a: int, b: int)
    ensures Congruent(a * b, Mul(a, b))
  {
  }
}

=== FILE: layout.dfy ===
/**
 The layout calculator: the offsets of the monitoring file that depend only
 on the maximum service count, fixed once when the writer is constructed,
 and the total file length.

 The file is a metadata region followed by a cache-line-aligned data region:

   [0, 160)                      header ints and the 128-byte gateway id
   [160, 160 + 132*N)            N service descriptors (name + location int)
   [serviceRefSection, end)      the service reference section, N*4 ints
   [endOfMetadata, total)        gateway labels, gateway values, then for each
                                 slot its labels followed by its values
 */
module Layout {
  import opened JavaInt
  import opened Format

  /** The layout fields `setServicesCount` computes. */
  datatype Layout = Layout(
    servicesCount: int,
    metadataLength: int,
    endOfMetadata: int,
    serviceRefSection: int)

  /** How a slot's four reference-section ints are addressed: `AsWritten` is
      what the writer does (consecutive slots one int apart), `Intended` is
      four ints per slot, as the class comment of `MonitorFileWriterImpl`
      lists them and as `setServicesCount` sizes the section. */
  datatype Addressing = AsWritten | Intended

  /** The writer's state after construction. */
  datatype Writer = Writer(gatewayId: string, layout: Layout, addressing: Addressing)

  ghost predicate IsPowerOfTwo(n: int)
    decreases if n < 0 then 0 else n
  {
    n == 1 || (n > 1 && n % 2 == 0 && IsPowerOfTwo(n / 2))
  }

  lemma PowerOfTwoPositive(n: int)
    requires IsPowerOfTwo(n)
    ensures n > 0
  {
  }

  lemma MulBound(d: int, a: int)
    ensures d >= 1 && a > 0 ==> d * a >= a
  {
    if d >= 1 && a > 0 {
      assert d * a == (d - 1) * a + a;
    }
  }

  /** A multiple of a positive `a` leaves no remainder modulo `a`. */
  lemma MultipleModZero(q: int, a: int)
    requires a > 0
    ensures (q * a) % a == 0
  {
    var t := (q * a) / a;
    var m := (q * a) % a;
    assert q * a == t * a + m;
    assert m == (q - t) * a;
    MulBound(q - t, a);
    MulBound(t - q, a);
  }

  /** `BitUtil.align`: round `value` up to the next multiple of `alignment`. */
  function Align(value: int, alignment: int): (r: int)
    requires IsPowerOfTwo(alignment)
    ensures r % alignment == 0
    ensures value <= r < value + alignment
  {
    PowerOfTwoPositive(alignment);
    var q := (value + alignment - 1) / alignment;
    MultipleModZero(q, alignment);
    q * alignment
  }

  /** Where the descriptor array starts: right after the service count. */
  const ServiceDescriptorsOffset: int := NoOfServicesOffset + SizeOfInt

  /** `setServicesCount`: the metadata length, the aligned start of the data
      region, and the reference section as the last `count * 4` ints before
      it. */
  function SetServicesCount(count: int): (l: Layout)
    ensures l.servicesCount == count
    // the metadata is the header, `count` descriptors and a full reference section
    ensures l.metadataLength
         == ServiceDescriptorsOffset + count * (SizeOfString + SizeOfInt)
          + count * OffsetsPerService * SizeOfInt
    // the data region starts on a cache line, past the metadata and one more int
    ensures l.endOfMetadata % CacheLineLength == 0
    ensures l.metadataLength + SizeOfInt <= l.endOfMetadata
         < l.metadataLength + SizeOfInt + CacheLineLength
    // the reference section ends exactly where the data region begins ...
    ensures l.serviceRefSection + count * OffsetsPerService * SizeOfInt == l.endOfMetadata
    // ... and starts after the last descriptor
    ensures ServiceDescriptorsOffset + count * (SizeOfString + SizeOfInt) < l.serviceRefSection
  {
    var metadataLength := NumberOfIntsInHeader * SizeOfInt + SizeOfString
                          + count * (SizeOfString + NumberOfIntsPerService * SizeOfInt);
    assert IsPowerOfTwo(CacheLineLength) by {
      assert IsPowerOfTwo(2) && IsPowerOfTwo(4) && IsPowerOfTwo(8);
      assert IsPowerOfTwo(16) && IsPowerOfTwo(32);
    }
    var endOfMetadata := Align(metadataLength + SizeOfInt, CacheLineLength);
    Layout(count, metadataLength, endOfMetadata,
           endOfMetadata - count * OffsetsPerService * SizeOfInt)
  }

  /** The constructor: a writer for `MAX_SERVICE_COUNT` slots. */
  function NewWriter(gatewayId: string): (w: Writer)
    ensures w.gatewayId == gatewayId && w.addressing == AsWritten
    ensures w.layout == Layout(10, 1640, 1664, 1504)
  {
    Writer(gatewayId, SetServicesCount(MaxServiceCount), AsWritten)
  }

  /** A writer whose layout is the one the constructor fixes. */
  predicate Constructed(w: Writer) {
    w.layout == SetServicesCount(MaxServiceCount)
  }

  /** The constructed writer's layout values. */
  lemma ConstructedLayout(w: Writer)
    requires Constructed(w)
    ensures w.layout == Layout(10, 1640, 1664, 1504)
  {
    assert w.layout == NewWriter(w.gatewayId).layout;
  }

  /** For every count up to the maximum, every layout value is a Java `int`
      and the data region is cache-line aligned. */
  lemma LayoutFitsJavaInt(count: int)
    requires 0 <= count <= MaxServiceCount
    ensures var l := SetServicesCount(count);
      && IsInt(l.metadataLength + SizeOfInt) && IsInt(l.endOfMetadata)
      && IsInt(l.serviceRefSection) && 0 < l.serviceRefSection
      && l.endOfMetadata % CacheLineLength == 0
  {
  }

  /** The bytes all counter buffers occupy, gateway and every slot alike. */
  const TotalLengthOfBuffers: int :=
    GatewayCounterLabelsBufferLength + GatewayCounterValuesBufferLength
    + MaxServiceCount * (ServiceCounterValuesBufferLength + ServiceCounterLabelsBufferLength)

  /** `computeMonitorTotalFileLength`: the data region start plus room for
      every buffer. The buffer total is a compile-time constant in Java; the
      final addition is a Java `int` addition. */
  function TotalFileLength(w: Writer): (r: int)
    ensures IsInt(r)
    ensures IsInt(w.layout.endOfMetadata + TotalLengthOfBuffers)
            ==> r - w.layout.endOfMetadata == TotalLengthOfBuffers
  {
    Add(w.layout.endOfMetadata, TotalLengthOfBuffers)
  }

  /** For the constructed writer the file is 380,634,752 bytes, with no
      Java `int` overflow. */
  lemma TotalFileLengthValue(w: Writer)
    requires Constructed(w)
    ensures TotalFileLength(w) == 380_634_752
    ensures TotalFileLength(w) < MaxValue
  {
  }

  /** The file offset of the `k`-th reference int of slot `index`. As written
      the code adds `index + k` ints (`index` alone for `k == 0`, which is the
      same for a Java `int` index); the intended layout adds `index * 4 + k`. */
  function RefCell(w: Writer, index: int, k: int): (r: int)
    requires IsInt(index) && 0 <= k < OffsetsPerService
    ensures IsInt(r)
    ensures 0 <= index < MaxServiceCount && IsInt(w.layout.serviceRefSection)
            && 0 <= w.layout.serviceRefSection <= 0x1000_0000 ==>
              match w.addressing
              case AsWritten => r == w.layout.serviceRefSection + (index + k) * SizeOfInt
              case Intended =>
                r == w.layout.serviceRefSection + (index * OffsetsPerService + k) * SizeOfInt
  {
    match w.addressing
    case AsWritten => Add(w.layout.serviceRefSection, Mul(Add(index, k), SizeOfInt))
    case Intended =>
      Add(w.layout.serviceRefSection, Mul(Add(Mul(index, OffsetsPerService), k), SizeOfInt))
  }

  /** The length of the metadata view the header is written through. As
      written it is `metadataLength + SIZE_OF_INT`; four ints per slot need
      the view to reach the data region. */
  function MetadataViewLength(w: Writer): (r: int)
    ensures Constructed(w) && w.addressing == AsWritten ==> r == 1644
    ensures Constructed(w) && w.addressing == Intended ==> r == 1664
  {
    match w.addressing
    case AsWritten => w.layout.metadataLength + SizeOfInt
    case Intended => w.layout.endOfMetadata
  }
}

=== FILE: metadata.dfy ===
/**
 The metadata writer: `addMetadataToAgronaFile` and `fillMetaData`, which
 store the fixed header at the start of the mapped file.
 */
module Metadata {
  import opened JavaInt
  import opened Format
  import opened Layout
  import opened Header

  /** The header after `fillMetaData`: both gateway buffer lengths and the
      service count are present, with their initial values. */
  predicate Initialized(h: Header) {
    && GwLabelsLengthOffset in h.ints && h.ints[GwLabelsLengthOffset] == GatewayCounterLabelsBufferLength
    && GwValuesLengthOffset in h.ints && h.ints[GwValuesLengthOffset] == GatewayCounterValuesBufferLength
    && NoOfServicesOffset in h.ints
  }

  /** `fillMetaData`: version, the two self-references, the gateway id, the
      gateway buffer descriptors (offsets zero until allocation, lengths the
      fixed constants) and a service count of zero. It overwrites whatever
      the header held, including an earlier service count. */
  function FillMetaData(w: Writer, h: Header): (r: Header)
    ensures IntsChangedOnly(h, r, HeaderIntFields)
    ensures r.strings == h.strings[12 := w.gatewayId]
    ensures r.ints[0] == 1
    ensures r.ints[4] == 12 && r.ints[8] == 156
    ensures r.ints[140] == 0 && r.ints[144] == 33_554_432
    ensures r.ints[148] == 0 && r.ints[152] == 1_048_576
    ensures r.ints[156] == 0
  {
    assert HeaderIntFields == {0, 4, 8, 140, 144, 148, 152, 156};
    var h := PutInt(h, MonitorVersionAt(0), MonitorVersion);
    var h := PutInt(h, MetadataItemOffset(GwDataReferenceOffset), MetadataItemOffset(GwDataOffset));
    var h := PutInt(h, MetadataItemOffset(ServiceDataReferenceOffset),
                    MetadataItemOffset(ServiceDataOffset));
    var h := PutString(h, MetadataItemOffset(GwIdOffset), w.gatewayId);
    var h := PutInt(h, MetadataItemOffset(GwLabelsReferenceOffset), 0);
    var h := PutInt(h, MetadataItemOffset(GwLabelsLengthOffset), GatewayCounterLabelsBufferLength);
    var h := PutInt(h, MetadataItemOffset(GwValuesReferenceOffset), 0);
    var h := PutInt(h, MetadataItemOffset(GwValuesLengthOffset), GatewayCounterValuesBufferLength);
    PutInt(h, MetadataItemOffset(NoOfServicesOffset), 0)
  }

  /** `addMetadataToAgronaFile`: a view of the metadata at the start of the
      file, filled by `fillMetaData`. */
  function AddMetadataToAgronaFile(w: Writer, h: Header): (a: Allocation)
    ensures a.buffer.offset == 0 && a.buffer.length == MetadataViewLength(w)
    ensures Initialized(a.header) && a.header.ints[NoOfServicesOffset] == 0
    ensures MonitorVersionOffset in a.header.ints && a.header.ints[MonitorVersionOffset] == MonitorVersion
  {
    Allocation(Buffer(0, MetadataViewLength(w)), FillMetaData(w, h))
  }

  /** Every field `fillMetaData` stores lies inside the metadata view. */
  lemma FillMetaDataInView(w: Writer)
    requires Constructed(w)
    ensures forall o :: o in HeaderIntFields ==> 0 <= o && o + SizeOfInt <= MetadataViewLength(w)
    ensures GwIdOffset + SizeOfString <= MetadataViewLength(w)
  {
  }

  /** The self-references point at the gateway id and at the service count. */
  lemma SelfReferences(w: Writer, h: Header)
    ensures var r := FillMetaData(w, h);
      && r.ints[GwDataReferenceOffset] == GwIdOffset
      && r.ints[ServiceDataReferenceOffset] == NoOfServicesOffset
      && r.strings[GwIdOffset] == w.gatewayId
  {
  }
}

=== FILE: region.dfy ===
/**
 The data region as a whole: the views the allocator hands out, in file
 order, cover the bytes from the end of the metadata to the computed file
 length with no gap and no overlap.
 */
module DataRegion {
  import opened JavaInt
  import opened Format
  import opened Layout
  import opened Header
  import opened Metadata
  import opened Allocator

  /** `bs` lies end to end, each view non-empty, starting at `from` and ending
      at `to`. */
  predicate Tiles(bs: seq<Buffer>, from: int, to: int)
    decreases |bs|
  {
    if |bs| == 0 then from == to
    else
      var last := bs[|bs| - 1];
      && 0 < last.length && last.End() == to
      && Tiles(bs[..|bs| - 1], from, last.offset)
  }

  /** Every view of a tiling lies between its two ends. */
  lemma {:induction false} TilesBounds(bs: seq<Buffer>, from: int, to: int, i: int)
    requires Tiles(bs, from, to)
    requires 0 <= i < |bs|
    ensures from <= bs[i].offset && bs[i].End() <= to
    decreases |bs|
  {
    var prefix := bs[..|bs| - 1];
    var last := bs[|bs| - 1];
    if i == |bs| - 1 {
      TilesFromBelow(prefix, from, last.offset);
    } else {
      TilesBounds(prefix, from, last.offset, i);
      assert prefix[i] == bs[i];
    }
  }

  /** A tiling never ends before it starts. */
  lemma {:induction false} TilesFromBelow(bs: seq<Buffer>, from: int, to: int)
    requires Tiles(bs, from, to)
    ensures from <= to
    decreases |bs|
  {
    if |bs| > 0 {
      TilesFromBelow(bs[..|bs| - 1], from, bs[|bs| - 1].offset);
    }
  }

  /** Views of a tiling appear in file order, so two of them never share a
      byte. */
  lemma {:induction false} TilesOrdered(bs: seq<Buffer>, from: int, to: int, i: int, j: int)
    requires Tiles(bs, from, to)
    requires 0 <= i < j < |bs|
    ensures bs[i].End() <= bs[j].offset
    ensures Disjoint(bs[i], bs[j])
    decreases |bs|
  {
    var prefix := bs[..|bs| - 1];
    var last := bs[|bs| - 1];
    assert prefix[i] == bs[i];
    if j == |bs| - 1 {
      TilesBounds(prefix, from, last.offset, i);
    } else {
      assert prefix[j] == bs[j];
      TilesOrdered(prefix, from, last.offset, i, j);
    }
  }

  /** The gateway views, then the labels and values views of slots
      `0 .. n - 1`, as the allocator computes them from the header. */
  function DataRegionViews(w: Writer, h: Header, n: int): (r: seq<Buffer>)
    requires 0 <= n <= MaxServiceCount
    requires GwLabelsLengthOffset in h.ints && GwValuesLengthOffset in h.ints
    ensures |r| == 2 + 2 * n
    ensures n > 0 ==> r[|r| - 1] == CreateServiceCounterValuesBuffer(w, h, n - 1).buffer
    decreases n
  {
    if n == 0 then
      [CreateGatewayCounterLabelsBuffer(w, h).buffer, CreateGatewayCounterValuesBuffer(w, h).buffer]
    else
      DataRegionViews(w, h, n - 1)
      + [CreateServiceCounterLabelsBuffer(w, h, n - 1).buffer,
         CreateServiceCounterValuesBuffer(w, h, n - 1).buffer]
  }

  /** Where the first `n` slots end. */
  function SlotsEnd(w: Writer, n: int): (r: int) {
    w.layout.endOfMetadata + GatewayCounterLabelsBufferLength + GatewayCounterValuesBufferLength
    + n * ServiceBlockLength
  }

  /** Appending two adjacent non-empty views to a tiling extends it. */
  lemma TilesExtend(bs: seq<Buffer>, from: int, a: Buffer, b: Buffer)
    requires Tiles(bs, from, a.offset)
    requires 0 < a.length && 0 < b.length && a.End() == b.offset
    ensures Tiles(bs + [a, b], from, b.End())
  {
    var ext := bs + [a, b];
    assert ext[..|ext| - 1] == bs + [a];
    assert (bs + [a])[..|bs|] == bs;
  }

  /** The two gateway views tile the region from the end of the metadata to
      the start of slot 0. */
  lemma GatewayViewsTiled(w: Writer, h: Header)
    requires Constructed(w) && Initialized(h)
    ensures Tiles(DataRegionViews(w, h, 0), w.layout.endOfMetadata, SlotsEnd(w, 0))
  {
    var labels := CreateGatewayCounterLabelsBuffer(w, h).buffer;
    var values := CreateGatewayCounterValuesBuffer(w, h).buffer;
    assert labels.offset == w.layout.endOfMetadata && values.End() == SlotsEnd(w, 0)
        && labels.End() == values.offset && 0 < labels.length && 0 < values.length
    by {
      GatewayBuffersAdjacent(w, h);
      ConstructedLayout(w);
    }
    TilesExtend([], w.layout.endOfMetadata, labels, values);
    assert [] + [labels, values] == DataRegionViews(w, h, 0);
  }

  /** Slot `i`'s two views continue the tiling of the gateway views and the
      slots before it. */
  lemma SlotViewsExtend(w: Writer, h: Header, i: int)
    requires Constructed(w) && Initialized(h)
    requires 0 <= i < MaxServiceCount
    requires Tiles(DataRegionViews(w, h, i), w.layout.endOfMetadata, SlotsEnd(w, i))
    ensures Tiles(DataRegionViews(w, h, i + 1), w.layout.endOfMetadata, SlotsEnd(w, i + 1))
  {
    var labels := CreateServiceCounterLabelsBuffer(w, h, i).buffer;
    var values := CreateServiceCounterValuesBuffer(w, h, i).buffer;
    assert labels.offset == SlotsEnd(w, i) && values.End() == SlotsEnd(w, i + 1)
        && labels.End() == values.offset && 0 < labels.length && 0 < values.length
    by {
      ServiceBuffersOfSlot(w, h, i);
    }
    TilesExtend(DataRegionViews(w, h, i), w.layout.endOfMetadata, labels, values);
    assert DataRegionViews(w, h, i + 1) == DataRegionViews(w, h, i) + [labels, values];
  }

  /** The gateway views and the first `n` slots tile the region from the end
      of the metadata to the end of slot `n - 1`. */
  lemma {:induction false} DataRegionTiled(w: Writer, h: Header, n: int)
    requires Constructed(w) && Initialized(h)
    requires 0 <= n <= MaxServiceCount
    ensures Tiles(DataRegionViews(w, h, n), w.layout.endOfMetadata, SlotsEnd(w, n))
    decreases n
  {
    if n == 0 {
      GatewayViewsTiled(w, h);
    } else {
      DataRegionTiled(w, h, n - 1);
      SlotViewsExtend(w, h, n - 1);
    }
  }

  /** All the views the allocator hands out cover exactly the bytes from the
      end of the metadata to `computeMonitorTotalFileLength()`, and no two of
      them share a byte. */
  lemma DataRegionCoversFile(w: Writer, h: Header)
    requires Constructed(w) && Initialized(h)
    ensures Tiles(DataRegionViews(w, h, MaxServiceCount), w.layout.endOfMetadata, TotalFileLength(w))
    ensures forall i, j :: 0 <= i < j < |DataRegionViews(w, h, MaxServiceCount)| ==>
      Disjoint(DataRegionViews(w, h, MaxServiceCount)[i], DataRegionViews(w, h, MaxServiceCount)[j])
  {
    var views := DataRegionViews(w, h, MaxServiceCount);
    DataRegionTiled(w, h, MaxServiceCount);
    ConstructedLayout(w);
    TotalFileLengthValue(w);
    assert SlotsEnd(w, MaxServiceCount) == TotalFileLength(w);
    forall i, j | 0 <= i < j < |views|
      ensures Disjoint(views[i], views[j])
    {
      TilesOrdered(views, w.layout.endOfMetadata, TotalFileLength(w), i, j);
    }
  }
}

=== FILE: registrar.dfy ===
/**
 The service registrar: `fillServiceMetadata`, run when a service is
 attached to slot `index`. It bumps the service count, writes the slot's
 descriptor (name and location) and seeds the slot's reference ints with
 zero offsets and the two fixed lengths. Nothing checks the slot index or
 whether the slot was registered before.
 */
module Registrar {
  import opened JavaInt
  import opened Format
  import opened Layout
  import opened Header
  import opened Metadata

  /** Where the descriptor array starts, computed as the writer does. */
  function ServOffset(): (r: int)
    ensures r == ServiceDescriptorsOffset
  {
    Add(MetadataItemOffset(NoOfServicesOffset), SizeOfInt)
  }

  /** Where slot `index`'s name is stored. */
  function ServiceNameOffset(index: int): (r: int) {
    Add(ServOffset(), Mul(index, SizeOfString + SizeOfInt))
  }

  /** Where slot `index`'s location int is stored. */
  function ServiceLocationOffset(index: int): (r: int) {
    Add(Add(ServOffset(), Mul(Add(index, 1), SizeOfString)), Mul(index, SizeOfInt))
  }

  /** The int fields `fillServiceMetadata` stores for slot `index`. */
  function ServiceIntWrites(w: Writer, index: int): set<int>
    requires IsInt(index)
  {
    {NoOfServicesOffset, ServiceLocationOffset(index),
     RefCell(w, index, 0), RefCell(w, index, 1), RefCell(w, index, 2), RefCell(w, index, 3)}
  }

  /** `fillServiceMetadata`. */
  function FillServiceMetadata(w: Writer, h: Header, serviceName: string, index: int): (r: Header)
    requires IsInt(index)
    requires NoOfServicesOffset in h.ints
    ensures IntsChangedOnly(h, r, ServiceIntWrites(w, index))
    ensures r.strings == h.strings[ServiceNameOffset(index) := serviceName]
  {
    var countOffset := MetadataItemOffset(NoOfServicesOffset);
    var h := PutInt(h, countOffset, Add(h.ints[countOffset], 1));
    var h := PutString(h, ServiceNameOffset(index), serviceName);
    var h := PutInt(h, ServiceLocationOffset(index), 0);
    var h := PutInt(h, RefCell(w, index, 0), 0);
    var h := PutInt(h, RefCell(w, index, 1), ServiceCounterLabelsBufferLength);
    var h := PutInt(h, RefCell(w, index, 2), 0);
    PutInt(h, RefCell(w, index, 3), ServiceCounterValuesBufferLength)
  }

  /** Within capacity a slot's descriptor is its name followed by its
      location int, 132 bytes per slot from offset 160. */
  lemma DescriptorOffsets(i: int)
    requires 0 <= i < MaxServiceCount
    ensures ServiceNameOffset(i) == 160 + 132 * i
    ensures ServiceLocationOffset(i) == ServiceNameOffset(i) + SizeOfString
    ensures ServiceLocationOffset(i) + SizeOfInt <= 1480
    ensures i == MaxServiceCount - 1 ==> ServiceLocationOffset(i) + SizeOfInt == 1480
  {
  }

  /** Descriptors of distinct slots share no byte, and all lie between the
      header and the reference section. */
  lemma DescriptorsDisjoint(w: Writer, i: int, j: int)
    requires Constructed(w)
    requires 0 <= i < MaxServiceCount && 0 <= j < MaxServiceCount && i != j
    ensures Disjoint(Buffer(ServiceNameOffset(i), SizeOfString + SizeOfInt),
                     Buffer(ServiceNameOffset(j), SizeOfString + SizeOfInt))
    ensures ServiceDescriptorsOffset <= ServiceNameOffset(i)
    ensures ServiceLocationOffset(i) + SizeOfInt <= w.layout.serviceRefSection
  {
    DescriptorOffsets(i);
    DescriptorOffsets(j);
    ConstructedLayout(w);
  }

  /** Within capacity the reference ints lie in the reference section, after
      every descriptor, and inside the metadata view. */
  lemma RefCellsInSection(w: Writer, i: int, k: int)
    requires Constructed(w)
    requires 0 <= i < MaxServiceCount && 0 <= k < OffsetsPerService
    ensures w.layout.serviceRefSection <= RefCell(w, i, k)
    ensures RefCell(w, i, k) + SizeOfInt <= w.layout.endOfMetadata
    ensures RefCell(w, i, k) + SizeOfInt <= MetadataViewLength(w)
  {
    ConstructedLayout(w);
  }

  /** A slot's four reference ints are four different fields. */
  lemma RefCellsOfSlotDistinct(w: Writer, i: int, k: int, l: int)
    requires Constructed(w)
    requires 0 <= i < MaxServiceCount
    requires 0 <= k < OffsetsPerService && 0 <= l < OffsetsPerService && k != l
    ensures RefCell(w, i, k) != RefCell(w, i, l)
  {
    ConstructedLayout(w);
  }

  /** The fields registering a slot within capacity stores are pairwise
      distinct, and none is a gateway length the allocator reads. */
  lemma RegistrationFieldsDistinct(w: Writer, i: int)
    requires Constructed(w)
    requires 0 <= i < MaxServiceCount
    ensures var location := ServiceLocationOffset(i);
      var c0, c1, c2, c3 := RefCell(w, i, 0), RefCell(w, i, 1), RefCell(w, i, 2), RefCell(w, i, 3);
      && location !in {NoOfServicesOffset, GwLabelsLengthOffset, GwValuesLengthOffset, c0, c1, c2, c3}
      && NoOfServicesOffset !in {GwLabelsLengthOffset, GwValuesLengthOffset, c0, c1, c2, c3}
      && GwLabelsLengthOffset !in {c0, c1, c2, c3}
      && GwValuesLengthOffset !in {c0, c1, c2, c3}
      && c0 !in {c1, c2, c3} && c1 !in {c2, c3} && c2 != c3
  {
    DescriptorOffsets(i);
    RefCellsInSection(w, i, 0);
    RefCellsInSection(w, i, 1);
    RefCellsInSection(w, i, 2);
    RefCellsInSection(w, i, 3);
    RefCellsOfSlotDistinct(w, i, 0, 1);
    RefCellsOfSlotDistinct(w, i, 0, 2);
    RefCellsOfSlotDistinct(w, i, 0, 3);
    RefCellsOfSlotDistinct(w, i, 1, 2);
    RefCellsOfSlotDistinct(w, i, 1, 3);
    RefCellsOfSlotDistinct(w, i, 2, 3);
    ConstructedLayout(w);
  }

  /** Every field `fillServiceMetadata` stores for a slot within capacity
      lies inside the metadata view. */
  lemma RegistrationInView(w: Writer, i: int)
    requires Constructed(w)
    requires 0 <= i < MaxServiceCount
    ensures forall o :: o in ServiceIntWrites(w, i) ==>
      0 <= o && o + SizeOfInt <= MetadataViewLength(w)
    ensures ServiceNameOffset(i) + SizeOfString <= MetadataViewLength(w)
  {
    ConstructedLayout(w);
    DescriptorOffsets(i);
    RefCellsInSection(w, i, 0);
    RefCellsInSection(w, i, 1);
    RefCellsInSection(w, i, 2);
    RefCellsInSection(w, i, 3);
  }

  /** What registering a slot within capacity stores: the count goes up by
      one (wrapping as a Java `int`), the location is zero, and the slot's reference ints read zero,
      the labels length, zero, the values length. The gateway fields the
      allocator reads are left alone. */
  lemma RegistrationValues(w: Writer, h: Header, serviceName: string, i: int)
    requires Constructed(w) && Initialized(h)
    requires 0 <= i < MaxServiceCount
    ensures var r := FillServiceMetadata(w, h, serviceName, i);
      && r.ints[NoOfServicesOffset] == Add(h.ints[NoOfServicesOffset], 1)
      && r.strings[ServiceNameOffset(i)] == serviceName
      && r.ints[ServiceLocationOffset(i)] == 0
      && r.ints[RefCell(w, i, 0)] == 0
      && r.ints[RefCell(w, i, 1)] == ServiceCounterLabelsBufferLength
      && r.ints[RefCell(w, i, 2)] == 0
      && r.ints[RefCell(w, i, 3)] == ServiceCounterValuesBufferLength
  {
    var location := ServiceLocationOffset(i);
    var c0, c1, c2, c3 := RefCell(w, i, 0), RefCell(w, i, 1), RefCell(w, i, 2), RefCell(w, i, 3);
    RegistrationFieldsDistinct(w, i);
    var h1 := PutInt(h, NoOfServicesOffset, Add(h.ints[NoOfServicesOffset], 1));
    var h2 := PutString(h1, ServiceNameOffset(i), serviceName);
    var h3 := PutInt(h2, location, 0);
    var h4 := PutInt(h3, c0, 0);
    var h5 := PutInt(h4, c1, ServiceCounterLabelsBufferLength);
    var h6 := PutInt(h5, c2, 0);
    var r := PutInt(h6, c3, ServiceCounterValuesBufferLength);
    assert FillServiceMetadata(w, h, serviceName, i) == r;
  }

  /** Registering a slot within capacity leaves the gateway lengths the
      allocator reads untouched. */
  lemma RegistrationKeepsInitialized(w: Writer, h: Header, serviceName: string, i: int)
    requires Constructed(w) && Initialized(h)
    requires 0 <= i < MaxServiceCount
    ensures Initialized(FillServiceMetadata(w, h, serviceName, i))
  {
    RegistrationFieldsDistinct(w, i);
  }

  /** The slot index is not checked: slot `MAX_SERVICE_COUNT`'s name would
      run into the reference section. */
  lemma SlotPastCapacityOverlapsRefSection(w: Writer)
    requires Constructed(w)
    ensures w.layout.serviceRefSection < ServiceNameOffset(MaxServiceCount) + SizeOfString
    ensures ServiceNameOffset(MaxServiceCount) < w.layout.serviceRefSection
  {
    ConstructedLayout(w);
  }

  /** Below the range the unchecked index is not harmless either: slot -1's
      location int is the service count field, so registering slot -1 leaves
      the count at zero whatever it held. */
  lemma NegativeSlotResetsCount(w: Writer, h: Header, serviceName: string)
    requires Constructed(w) && Initialized(h)
    ensures ServiceLocationOffset(-1) == NoOfServicesOffset
    ensures FillServiceMetadata(w, h, serviceName, -1).ints[NoOfServicesOffset] == 0
  {
    ConstructedLayout(w);
    assert forall k :: 0 <= k < OffsetsPerService ==> RefCell(w, -1, k) != NoOfServicesOffset;
  }

  /** Past the range the count still goes up by one: slot 10 is counted like
      any other although it has no room of its own. */
  lemma PastCapacitySlotCounted(w: Writer, h: Header, serviceName: string)
    requires Constructed(w) && Initialized(h)
    ensures FillServiceMetadata(w, h, serviceName, MaxServiceCount).ints[NoOfServicesOffset]
         == Add(h.ints[NoOfServicesOffset], 1)
  {
    ConstructedLayout(w);
    assert ServiceLocationOffset(MaxServiceCount) != NoOfServicesOffset;
    assert forall k :: 0 <= k < OffsetsPerService ==> RefCell(w, MaxServiceCount, k) != NoOfServicesOffset;
  }

  /** For indices 11 to 1,000,000 the location int lies wholly past the
      metadata view that `fillServiceMetadata` writes through, while the
      count has already been bumped. (Far larger indices wrap back onto the
      slots; see `WrappedSlotAliases`.) Slot 11's name starts at 1612 and its location int at 1740,
      against a view of 1644 bytes. */
  lemma PastViewFromSlotEleven(w: Writer, index: int)
    requires Constructed(w) && w.addressing == AsWritten
    requires MaxServiceCount < index <= 1_000_000
    ensures MetadataViewLength(w) <= ServiceLocationOffset(index)
    ensures index == MaxServiceCount + 1 ==>
      ServiceNameOffset(index) == 1612 && ServiceLocationOffset(index) == 1740
      && ServiceNameOffset(index) < MetadataViewLength(w)
  {
    ConstructedLayout(w);
  }

  /** The exact value slot `index`'s name offset stands for. */
  lemma NameResidue(index: int)
    ensures Congruent(ServiceDescriptorsOffset + 132 * index, ServiceNameOffset(index))
  {
    var m := Mul(index, SizeOfString + SizeOfInt);
    MulResidue(index, SizeOfString + SizeOfInt);
    AddResidue(ServOffset(), m);
    CongruentSum(ServiceDescriptorsOffset, index * 132, ServiceDescriptorsOffset, m);
    CongruentSymTrans(ServiceDescriptorsOffset + index * 132, ServiceDescriptorsOffset + m,
                      Add(ServOffset(), m));
  }

  /** The exact value slot `index`'s location offset stands for. */
  lemma LocationResidue(index: int)
    ensures Congruent(288 + 132 * index, ServiceLocationOffset(index))
  {
    var a1 := Add(index, 1);
    var m1 := Mul(a1, SizeOfString);
    var s1 := Add(ServOffset(), m1);
    var m2 := Mul(index, SizeOfInt);
    AddResidue(index, 1);
    MulResidue(a1, SizeOfString);
    AddResidue(ServOffset(), m1);
    MulResidue(index, SizeOfInt);
    AddResidue(s1, m2);
    CongruentScale(index + 1, a1, SizeOfString);
    CongruentSymTrans((index + 1) * SizeOfString, a1 * SizeOfString, m1);
    CongruentSum(ServiceDescriptorsOffset, (index + 1) * SizeOfString, ServiceDescriptorsOffset, m1);
    CongruentSymTrans(ServiceDescriptorsOffset + (index + 1) * SizeOfString,
                      ServiceDescriptorsOffset + m1, s1);
    CongruentSum(ServiceDescriptorsOffset + (index + 1) * SizeOfString, index * SizeOfInt, s1, m2);
    CongruentSymTrans(ServiceDescriptorsOffset + (index + 1) * SizeOfString + index * SizeOfInt,
                      s1 + m2, Add(s1, m2));
  }

  /** The exact value slot `index`'s `k`-th reference offset stands for. */
  lemma RefCellResidue(w: Writer, index: int, k: int)
    requires IsInt(index) && 0 <= k < OffsetsPerService
    ensures w.addressing == AsWritten ==>
      Congruent(w.layout.serviceRefSection + 4 * index + 4 * k, RefCell(w, index, k))
    ensures w.addressing == Intended ==>
      Congruent(w.layout.serviceRefSection + 16 * index + 4 * k, RefCell(w, index, k))
  {
    var base := w.layout.serviceRefSection;
    var c := if w.addressing == AsWritten then index else Mul(index, OffsetsPerService);
    var pc := if w.addressing == AsWritten then index else index * OffsetsPerService;
    MulResidue(index, OffsetsPerService);
    assert Congruent(pc, c);
    var a := Add(c, k);
    var m := Mul(a, SizeOfInt);
    AddResidue(c, k);
    MulResidue(a, SizeOfInt);
    AddResidue(base, m);
    CongruentSum(pc, k, c, k);
    CongruentSymTrans(pc + k, c + k, a);
    CongruentScale(pc + k, a, SizeOfInt);
    CongruentSymTrans((pc + k) * SizeOfInt, a * SizeOfInt, m);
    CongruentSum(base, (pc + k) * SizeOfInt, base, m);
    CongruentSymTrans(base + (pc + k) * SizeOfInt, base + m, Add(base, m));
    assert RefCell(w, index, k) == Add(base, m);
  }

  /** The slot index is a Java `int` and every field offset is computed
      modulo 2^32. Index `i + 2^30` moves the descriptor by 132 * 2^30 bytes
      and a reference int by 4 * 2^30 (16 * 2^30 with four ints per slot),
      all multiples of 2^32, so it addresses exactly the fields of slot `i`:
      index 2^30 writes over slot 0, inside the view, and index 2^30 - 1 hits
      the service count as slot -1 does. */
  lemma WrappedSlotAliases(w: Writer, index: int, k: int)
    requires IsInt(index) && IsInt(index + 0x4000_0000)
    requires 0 <= k < OffsetsPerService
    ensures ServiceNameOffset(index + 0x4000_0000) == ServiceNameOffset(index)
    ensures ServiceLocationOffset(index + 0x4000_0000) == ServiceLocationOffset(index)
    ensures RefCell(w, index + 0x4000_0000, k) == RefCell(w, index, k)
    ensures index == 0 ==> ServiceLocationOffset(index + 0x4000_0000) == 288
    ensures index == -1 ==> ServiceLocationOffset(index + 0x4000_0000) == NoOfServicesOffset
  {
    NameAliases(index);
    LocationAliases(index);
    RefCellAliases(w, index, k);
    assert ServiceLocationOffset(0) == 288;
    assert ServiceLocationOffset(-1) == NoOfServicesOffset;
  }

  /** The name half of `WrappedSlotAliases`. */
  lemma NameAliases(index: int)
    requires IsInt(index) && IsInt(index + 0x4000_0000)
    ensures ServiceNameOffset(index + 0x4000_0000) == ServiceNameOffset(index)
  {
    var j := index + 0x4000_0000;
    var pj, pi := ServiceDescriptorsOffset + 132 * j, ServiceDescriptorsOffset + 132 * index;
    assert Congruent(pj, pi) by {
      assert pj - pi == 33 * Modulus;
    }
    NameResidue(index);
    NameResidue(j);
    CongruentIntsVia(ServiceNameOffset(j), pj, ServiceNameOffset(index), pi);
  }

  /** The location half of `WrappedSlotAliases`. */
  lemma LocationAliases(index: int)
    requires IsInt(index) && IsInt(index + 0x4000_0000)
    ensures ServiceLocationOffset(index + 0x4000_0000) == ServiceLocationOffset(index)
  {
    var j := index + 0x4000_0000;
    var pj, pi := 288 + 132 * j, 288 + 132 * index;
    assert Congruent(pj, pi) by {
      assert pj - pi == 33 * Modulus;
    }
    LocationResidue(index);
    LocationResidue(j);
    CongruentIntsVia(ServiceLocationOffset(j), pj, ServiceLocationOffset(index), pi);
  }

  /** The reference-int half of `WrappedSlotAliases`. */
  lemma RefCellAliases(w: Writer, index: int, k: int)
    requires IsInt(index) && IsInt(index + 0x4000_0000)
    requires 0 <= k < OffsetsPerService
    ensures RefCell(w, index + 0x4000_0000, k) == RefCell(w, index, k)
  {
    var j := index + 0x4000_0000;
    RefCellResidue(w, index, k);
    RefCellResidue(w, j, k);
    var base := w.layout.serviceRefSection;
    if w.addressing == AsWritten {
      assert (base + 4 * j + 4 * k) - (base + 4 * index + 4 * k) == Modulus;
      CongruentIntsVia(RefCell(w, j, k), base + 4 * j + 4 * k,
                       RefCell(w, index, k), base + 4 * index + 4 * k);
    } else {
      assert (base + 16 * j + 4 * k) - (base + 16 * index + 4 * k) == 4 * Modulus;
      CongruentIntsVia(RefCell(w, j, k), base + 16 * j + 4 * k,
                       RefCell(w, index, k), base + 16 * index + 4 * k);
    }
  }

  /** One service attachment: a name and the slot the caller chose. */
  datatype Registration = Registration(serviceName: string, index: int)

  /** `fillServiceMetadata` applied to each registration in turn. */
  function RegisterAll(w: Writer, h: Header, regs: seq<Registration>): (r: Header)
    requires forall k :: 0 <= k < |regs| ==> IsInt(regs[k].index)
    requires NoOfServicesOffset in h.ints
    ensures h.ints.Keys <= r.ints.Keys
    decreases |regs|
  {
    if |regs| == 0 then h
    else
      var last := regs[|regs| - 1];
      FillServiceMetadata(w, RegisterAll(w, h, regs[..|regs| - 1]), last.serviceName, last.index)
  }

  /** Each registration adds exactly one to the count, whether or not its
      slot was registered before. */
  lemma {:induction false} RegisterAllCount(w: Writer, h: Header, regs: seq<Registration>)
    requires Constructed(w) && Initialized(h)
    requires forall k :: 0 <= k < |regs| ==> 0 <= regs[k].index < MaxServiceCount
    requires 0 <= h.ints[NoOfServicesOffset] && h.ints[NoOfServicesOffset] + |regs| <= MaxValue
    ensures Initialized(RegisterAll(w, h, regs))
    ensures RegisterAll(w, h, regs).ints[NoOfServicesOffset] == h.ints[NoOfServicesOffset] + |regs|
  {
    if |regs| > 0 {
      var prefix := regs[..|regs| - 1];
      var last := regs[|regs| - 1];
      RegisterAllCount(w, h, prefix);
      RegistrationKeepsInitialized(w, RegisterAll(w, h, prefix), last.serviceName, last.index);
      RegistrationValues(w, RegisterAll(w, h, prefix), last.serviceName, last.index);
    }
  }

  /** After `fillMetaData`, `k` registrations leave the count at `k`. */
  lemma CountAfterRegistrations(w: Writer, h: Header, regs: seq<Registration>)
    requires Constructed(w)
    requires forall k :: 0 <= k < |regs| ==> 0 <= regs[k].index < MaxServiceCount
    requires |regs| <= MaxValue
    ensures RegisterAll(w, FillMetaData(w, h), regs).ints[NoOfServicesOffset] == |regs|
  {
    RegisterAllCount(w, FillMetaData(w, h), regs);
  }
}
